=== FILE: README.md ===
# slurmtop core, modelled in Dafny

slurmtop is a terminal monitor for the Slurm workload manager. It runs
`squeue` and `sinfo`, and it reads `/etc/os-release`. The results are shown
as a job table, a partition load panel and an information line.

This project models the pure text and arithmetic transforms that sit between
those commands and the widgets, and proves properties about them. The
commands' output, the file's lines and the current time are plain inputs.

| module | file | models |
|---|---|---|
| `Results` | results.dfy | `Option`, `Result`, and `Collect`, a loop that stops at the first error |
| `PyText` | pytext.dfy | the Python built-ins the parsers rely on: `isspace`, `split()`, `split(sep)`, `strip`, `int(str)`, `str(int)`, `s[:n]`, `s * n`, `rjust`, `join` |
| `Duration` | duration.dfy | `time_to_seconds`, `datetime_to_seconds`, and the elapsed-time field (`str(timedelta).split(".")[0]`) |
| `Jobs` | jobs.dfy | `SqueueData.process_job_data` |
| `Partitions` | partitions.dfy | `SinfoData.process_data`, `get_partitions_list`, and the bar arithmetic of both partition widgets |
| `Sorting` | sorting.dfy | `SqueueViewer.sort_reverse`, `SqueueViewer.sort`, the three `action_sort_by_*` key functions, and the table's stable sort |
| `Squeue` | squeue.dfy | `split_string_into_lines`, and the parsing half of `get_jobs_list` |
| `Info` | info.dfy | `get_os_release_info` over a list of lines, the system string, and the Slurm label |

Most Python exceptions that a modelled operation can raise are `Err`
values, named after their cause. There are two exceptions to this. The
`ValueError`s that `time_to_seconds` swallows itself become 0. The range
errors of `datetime.fromtimestamp` are not modelled (see "## Left out").
Python's `sorted` is
stable, also with `reverse=True`, so the table's sort is modelled as a
stable insertion sort of `(position, key)` pairs. Its result is proved to be
a permutation, sorted, and stable.

Where the code and the project's own documentation disagree, the model follows
the code:

- The first sort of a column is descending. `sort_reverse` returns `True` on
  its first call for a column, and that value is passed as `reverse`.
- Only `node_number` sorts numerically. `priority_number` sorts as text.
- Neither partition widget guards against a zero total: both raise
  `ZeroDivisionError`.
- Nothing retains snapshots, counts staleness or skips a busy refresh, so
  nothing of that kind is modelled.

## Model

| member | source | states |
|---|---|---|
| Results.Collect | src/slurmtop/_data.py:95-122 | the loop succeeds exactly when every step succeeds, and then holds each step's value in order; otherwise its error is that of the first failing step, and every earlier step succeeded |
| Duration.ClockField | src/slurmtop/_data.py:136 | a field that `%H`, `%M` or `%S` accepts never exceeds that field's maximum |
| Duration.StrptimeHMS | src/slurmtop/_data.py:145-146 | an accepted `%H:%M:%S` clock is less than one day of seconds |
| Duration.StrptimeMS | src/slurmtop/_data.py:149-150 | an accepted `%M:%S` clock is less than one hour of seconds |
| Duration.WithDays | src/slurmtop/_data.py:134-142 | the hyphen branch never yields a negative count of seconds |
| Duration.TimeToSeconds | src/slurmtop/_data.py:130-153 | there is no result (Python's implicit `None`) exactly when the text has no hyphen and has neither one nor two colons; any result is non-negative |
| Duration.StrptimeClock | src/slurmtop/_data.py:145-146 | `HH:MM:SS` of two-digit fields is accepted exactly when hours < 24, minutes < 60 and seconds < 60, and then gives H*3600+M*60+S |
| Duration.WithDaysOf | src/slurmtop/_data.py:135-142 | `D-HH:MM:SS` unpacks into days and clock; the result is D*86400 plus the clock, or 0 when the clock is out of range |
| Duration.TimeToSecondsWithDays | src/slurmtop/_data.py:134-142 | `D-HH:MM:SS` reads as D*86400+H*3600+M*60+S when H<24, M<60 and S<60, and as 0 otherwise |
| Duration.TimeToSecondsClock | src/slurmtop/_data.py:144-146 | a hyphen-free `HH:MM:SS` reads as H*3600+M*60+S when every field is in range, and as 0 otherwise |
| Duration.TimeToSecondsMinutes | src/slurmtop/_data.py:148-150 | a hyphen-free `MM:SS` reads as M*60+S when both fields are below 60, and as 0 otherwise |
| Duration.TimeToSecondsManyHyphens | src/slurmtop/_data.py:135 | a text with two or more hyphens fails the two-way unpacking and reads as 0 |
| Duration.TimeToSecondsNonNumeric | src/slurmtop/_data.py:144-153 | a two-colon text containing a character that is neither a digit nor a colon reads as 0 |
| Duration.TimeToSecondsMinutesNonNumeric | src/slurmtop/_data.py:148-153 | a one-colon text containing a character that is neither a digit nor a colon reads as 0 |
| Duration.TimeToSecondsBadDays | src/slurmtop/_data.py:134-142 | a day count that `int` rejects makes `D-clock` read as 0, whatever the clock |
| Duration.DatetimeToSeconds | src/slurmtop/_squeue_widget.py:186-206 | the empty text is 0; a failure is `InvalidTimeFormat` carrying the text; a non-empty text that does not start with a digit fails; a non-empty text that reads starts with digit runs `H:M:S` (the last not continued by a digit), or with a day group followed by them, and reads as what those fields are worth |
| Duration.ReadClock | src/slurmtop/_squeue_widget.py:191-205 | `H:M:S` with digit runs of any length and no range check, followed by any text that does not continue the last run, reads as H*3600+M*60+S |
| Duration.ReadDaysClock | src/slurmtop/_squeue_widget.py:191-205 | `D day, H:M:S` and `D days, H:M:S`, followed by any such text, read as D*86400+H*3600+M*60+S |
| Duration.MinutesOnlyRaises | src/slurmtop/_squeue_widget.py:191-200 | `12:34`, which has no seconds field, raises the invalid-format error |
| Duration.DayPrefixOf | src/slurmtop/_squeue_widget.py:192 | the day group `D day, ` or `D days, ` is read as D and consumed up to the clock |
| Duration.MatchDaysAndClock | src/slurmtop/_squeue_widget.py:194-205 | when the day group and a clock both match, the text reads as the days plus the clock |
| Duration.MatchClockOnly | src/slurmtop/_squeue_widget.py:194-205 | a text that begins with a digit run and a colon, with a clock at its start, reads as that clock alone |
| Duration.ClockTextOf | src/slurmtop/_data.py:110 | the rendering of days and a clock starts with a digit and has no `.`; below 100000 days it has at most 20 characters |
| Duration.ClockText | src/slurmtop/_data.py:110 | the rendering of whole seconds starts with a digit and has no `.`; below 100000 days it has at most 20 characters |
| Duration.ElapsedText | src/slurmtop/_data.py:107-110 | the field is empty exactly for a negative delta (the `end_time < start_time` guard), and otherwise is `str(delta).split(".")[0]`, the rendering of the delta's whole seconds |
| Duration.TimeElapse | src/slurmtop/_data.py:104-114 | the field is empty exactly when the job has not started or starts after now; otherwise it is the rendering of the whole seconds elapsed |
| Duration.TimedeltaHead | src/slurmtop/_data.py:110 | cutting a `timedelta` rendering at its first `.` leaves the rendering of its whole seconds |
| Duration.ClockTextOfRoundTrip | src/slurmtop/_squeue_widget.py:186-206 | the verbose reader recovers D*86400+H*3600+M*60+S from the rendering of D days and a clock |
| Duration.ClockTextRoundTrip | src/slurmtop/_squeue_widget.py:186-206 | the verbose reader inverts the `timedelta` rendering: reading the rendering of n seconds gives n |
| Duration.TimeElapseRoundTrip | src/slurmtop/_data.py:104-114 | reading an elapsed-time field gives the whole seconds elapsed, or 0 when the field is empty |
| Duration.TimeElapseOneHourOneMinuteOneSecond | src/slurmtop/_data.py:110 | a job started 3661 seconds before now shows `1:01:01` |
| Jobs.Truncate | src/slurmtop/_data.py:116-121 | a field is at most 20 characters; a short one is unchanged; a long one is its first 17 characters followed by `...` |
| Jobs.TruncateIdempotent | src/slurmtop/_data.py:116-121 | truncating twice equals truncating once, and truncation keeps the first 17 characters |
| Jobs.Assign | src/slurmtop/_data.py:98-114 | the four derived keys hold the derived values, and the other five keys keep the job's own values |
| Jobs.ProcessJob | src/slurmtop/_data.py:96-121 | a job fails exactly when a member it indexes is missing or its state is empty; a row has the nine keys in order, each at most 20 characters |
| Jobs.ProcessAll | src/slurmtop/_data.py:95-122 | the loop fails exactly when some job fails; otherwise there is one row per job, in input order |
| Jobs.FirstFailingJob | src/slurmtop/_data.py:95-122 | a failure is the error of the first failing job, and every earlier job succeeded |
| Jobs.ProcessJobData | src/slurmtop/_data.py:93-124 | it fails exactly when the loop fails; without `max_jobs` it returns every row, and with it a prefix of the rows as long as `[:max_jobs]` |
| Jobs.MaxJobsPrefix | src/slurmtop/_data.py:124 | `max_jobs` keeps the slice `[:max_jobs]` of the full list |
| Jobs.CopiedFields | src/slurmtop/_data.py:116-121 | the five copied keys show the job's own truncated value, and the empty text when the key is missing |
| Jobs.DerivedFields | src/slurmtop/_data.py:98-114 | the state, elapsed time, node count and priority fields are the truncated derived values |
| Jobs.ElapsedGuard | src/slurmtop/_data.py:104-112 | a job that has not started, or that starts after now, shows an empty elapsed time |
| Jobs.ElapsedTextRoundTrip | src/slurmtop/_data.py:104-121 | the truncated elapsed-time text reads back as the whole seconds elapsed |
| Jobs.ElapsedFieldRoundTrip | src/slurmtop/_data.py:104-121 | the displayed elapsed time reads back, through the time column's sort key, as the whole seconds elapsed, or 0 when empty |
| Jobs.NodeNumberRoundTrip | src/slurmtop/_data.py:98 | the displayed node count reads back through `int` as the job's node count |
| Partitions.PartitionsList | src/slurmtop/_sinfo.py:17-22 | each kept line becomes its whitespace tokens, in order; the first n lines are kept |
| Partitions.ParseCount | src/slurmtop/_sinfo.py:63 | one part is accepted exactly when it is a decimal natural literal, and then gives its value; an accepted part is the decimal text of its value, or a run of zeros for 0 |
| Partitions.ParseCounts | src/slurmtop/_sinfo.py:62-64 | all parts are accepted exactly when each one is a literal; a failure names a rejected part |
| Partitions.ParseQuadruple | src/slurmtop/_sinfo.py:62-64 | a token is accepted exactly when it has three `/` and four literal parts, and then gives those four values |
| Partitions.QuadrupleArity | src/slurmtop/_sinfo.py:62-64 | a token of numeric parts with any other number of parts than four fails, naming that number |
| Partitions.ParseCountRoundTrip | src/slurmtop/_sinfo.py:63 | reading the decimal text of n gives n |
| Partitions.QuadrupleRoundTrip | src/slurmtop/_sinfo.py:62-64 | `a/i/o/t` written in decimal reads back as the four counts |
| Partitions.CountsRoundTrip | src/slurmtop/_sinfo.py:62-64 | four decimal texts read back as the four counts |
| Partitions.SplitFour | src/slurmtop/_sinfo.py:63 | four digit strings joined with `/` split back into those four strings |
| Partitions.ReadLine | src/slurmtop/_data.py:47-51 | a line is read exactly when it has a fourth token whose quadruple parses with a non-zero total; fewer than four tokens fail on the missing index |
| Partitions.ProcessPartition | src/slurmtop/_data.py:47-52 | the usage has a positive denominator, and it is at most 100 percent exactly when alloc+other does not exceed the reported total |
| Partitions.ProcessPartitionOfLine | src/slurmtop/_data.py:47-52 | a line whose fourth token is `a/i/o/t` in decimal, with t > 0, gives the record of its name and a, i, o, with usage (a+o)*100/t |
| Partitions.ProcessData | src/slurmtop/_data.py:43-53 | it fails exactly when some line fails; otherwise there is one record per line, in order |
| Partitions.SegmentWidths | src/slurmtop/_sinfo.py:65-67 | the three widths sum to the bar width, and the first two are the floors of alloc*width/total and idle*width/total |
| Partitions.SegmentsWithinWidth | src/slurmtop/_sinfo.py:65-67 | when alloc+idle does not exceed the total, every segment lies between 0 and the bar width |
| Partitions.ViewerSegments | src/slurmtop/_sinfo_widget.py:70-73 | with the total recomputed as the sum of the counts, every segment lies in [0, 25] and the three sum to 25 |
| Partitions.CollectRow | src/slurmtop/_sinfo.py:60-81 | the row exists exactly when the line is read, and is then the cells of that line's counts |
| Partitions.CollectCells | src/slurmtop/_sinfo.py:60-81 | the name cut to 8 characters, the 30-wide bar, and four digit cells whose values are the four counts; the bar holds exactly 30 cells when alloc+idle does not exceed the total and the ratio text does not start with `[` |
| Partitions.CountCells | src/slurmtop/_sinfo.py:79-81 | each count cell is a non-empty digit string whose decimal value is its count |
| Partitions.CollectBarCells | src/slurmtop/_sinfo.py:65-77 | when alloc+idle does not exceed the total, the bar holds exactly 30 cells |
| Partitions.ViewerRow | src/slurmtop/_sinfo_widget.py:66-85 | the row fails exactly when all three counts are zero; otherwise it is the name, the 25-wide bar over the recomputed total, and four digit cells whose values are the three counts and their sum; the bar holds exactly 25 cells when the ratio text does not start with `[` |
| Partitions.BarRoundTrip | src/slurmtop/_sinfo_widget.py:75-82 | reading a bar back gives its three segment counts (negative ones as 0) and the right-justified ratio text |
| Sorting.SortReverse | src/slurmtop/_squeue_widget.py:80-83 | the returned flag is the negation of the stored one and is stored; every other column's flag is unchanged |
| Sorting.SortReverseAlternates | src/slurmtop/_squeue_widget.py:80-83 | two consecutive calls for one column return opposite flags |
| Sorting.SortReverseSequence | src/slurmtop/_squeue_widget.py:80-83 | from a fresh viewer, the k-th call for a column returns `True` exactly when k is odd |
| Sorting.RowKeys | src/slurmtop/_squeue_widget.py:98-125 | keying fails exactly when some row lacks the column or its key fails; otherwise there is one key per row |
| Sorting.Sort | src/slurmtop/_squeue_widget.py:85-96 | `sorted_column` is the column; `sorted_order` and the new stored flag are the negation of the old flag; other columns keep their flags; it fails exactly when keying fails |
| Sorting.SortRecordsDirection | src/slurmtop/_squeue_widget.py:88-89 | `sorted_order` equals the `reverse` flag that the sort uses |
| Sorting.FirstSortDescending | src/slurmtop/_squeue_widget.py:80-89 | the first sort of a column is descending and the second ascending |
| Sorting.SortIsStableSort | src/slurmtop/_squeue_widget.py:101-125 | the sorted rows are a permutation of the rows, ordered by key in the chosen direction, with equal keys in their original order |
| Sorting.SortRowsStable | src/slurmtop/_squeue_widget.py:101-125 | the rows in key order are the rows at the positions of a sorted, stable permutation of the position-tagged keys |
| Sorting.SortWithKeys | src/slurmtop/_squeue_widget.py:98-125 | a sort reorders the rows by their keys in the direction the toggle returns |
| Sorting.InsertionSortPermutes | src/slurmtop/_squeue_widget.py:101-107 | the sort is a permutation of its input |
| Sorting.InsertionSortSorted | src/slurmtop/_squeue_widget.py:101-107 | no element is followed by one that should come strictly before it |
| Sorting.InsertionSortStable | src/slurmtop/_squeue_widget.py:101-107 | elements with equal keys keep their input order |
| Sorting.ElapsedKey | src/slurmtop/_squeue_widget.py:101-105 | the time column's key of an elapsed-time field is the whole seconds elapsed, or 0 for an empty field |
| Sorting.NodeKeyRoundTrip | src/slurmtop/_squeue_widget.py:118-125 | the node column keys `str(n)` as the integer n, for every integer n |
| Sorting.NodeKeyRejects | src/slurmtop/_squeue_widget.py:118-125 | a node cell with a character `int` does not admit fails to key, naming the cell |
| Sorting.NodeNumberScenario | src/slurmtop/_squeue_widget.py:118-125 | node counts 3, 1, 2 sort as 3, 2, 1 on the first click and as 1, 2, 3 on the second |
| Squeue.Chunks | src/slurmtop/_squeue.py:11-15 | there are no pieces exactly for the empty text; their number is the ceiling of length/n; every piece is non-empty and at most n long, and all but the last are exactly n long |
| Squeue.ChunksConcat | src/slurmtop/_squeue.py:13-14 | concatenating the pieces gives the text back |
| Squeue.ChunksCount | src/slurmtop/_squeue.py:13 | the number of pieces is (length + n - 1) / n |
| Squeue.SplitStringIntoLines | src/slurmtop/_squeue.py:11-15 | a zero width fails (`range` step 0); a negative width gives the empty text; for a positive width and a non-empty newline-free text, splitting the result at newlines gives pieces of at most that width that concatenate to the text |
| Squeue.ChunkLinesRoundTrip | src/slurmtop/_squeue.py:11-15 | the newline-joined pieces of a non-empty newline-free text split back into those pieces, which concatenate to the text |
| Squeue.SplitEmpty | src/slurmtop/_squeue.py:11-15 | the empty text gives the empty text for every non-zero width |
| Squeue.ZipInto | src/slurmtop/_squeue.py:26-27 | the keys after the loop are the keys before it plus every header |
| Squeue.ZipIntoLast | src/slurmtop/_squeue.py:26-27 | a header that does not occur again later maps to its own value |
| Squeue.ZipMap | src/slurmtop/_squeue.py:24-27 | the keys are exactly the headers that have a value |
| Squeue.ZipMapLast | src/slurmtop/_squeue.py:24-27 | a header that has a value and does not occur again later maps to that value |
| Squeue.ZipMapRoundTrip | src/slurmtop/_squeue.py:24-27 | with distinct headers and one value each, reading the map back in header order gives the values |
| Squeue.GetJobsList | src/slurmtop/_squeue.py:17-33 | it fails exactly on empty output; otherwise there is one map per line after the header, in order, cut to `num_jobs` |
| Squeue.GetJobsListPrefix | src/slurmtop/_squeue.py:30-33 | `num_jobs` keeps a prefix of the full list |
| Squeue.ShortRowExample | src/slurmtop/_squeue.py:26-27 | headers `JOBID USER ST` with values `43 bob` give a map of `JOBID` and `USER` only: `zip` stops at the shorter list |
| Squeue.FullRowExample | src/slurmtop/_squeue.py:26-27 | headers `JOBID USER ST` with values `42 ann R` map each of the three headers to its value |
| Info.SplitAtFirst | src/slurmtop/_info_widget.py:30 | `split("=", 1)` gives a separator-free key and the rest, which rejoin with `=` to the line |
| Info.SplitAtFirstUnique | src/slurmtop/_info_widget.py:30 | the split happens at the first `=`, so the value may itself contain `=` |
| Info.ParseLine | src/slurmtop/_info_widget.py:24-31 | a line gives an entry exactly when it is not blank and contains `=`; the right-stripped line is then the key, `=`, and a rest whose `"`-stripped form is the value; the key has no `=`, and the value neither starts nor ends with `"` |
| Info.Update | src/slurmtop/_info_widget.py:24-31 | the keys after the loop are the keys before it plus every key that some entry sets |
| Info.OsReleaseInfo | src/slurmtop/_info_widget.py:17-36 | a missing file gives exactly the two fallback entries; otherwise the keys are exactly those that some line sets |
| Info.IgnoredLine | src/slurmtop/_info_widget.py:26-29 | a blank line, or one without `=`, does not change the result |
| Info.LastSettingWins | src/slurmtop/_info_widget.py:31 | a key maps to the value of the last line that sets it |
| Info.UnquoteQuoted | src/slurmtop/_info_widget.py:31 | stripping `"` from a quoted value gives the value back |
| Info.ParseLineRoundTrip | src/slurmtop/_info_widget.py:30-31 | the line `key="value"` with a newline parses back to that key and value |
| Info.ParseLineUnquoted | src/slurmtop/_info_widget.py:24-31 | an unquoted `KEY=value` line with any trailing whitespace parses to that key and value |
| Info.SystemStringFallback | src/slurmtop/_info_widget.py:80-86 | without the file the system string is `Unknown Linux Unknown Version` |
| Info.SystemStringOfFile | src/slurmtop/_info_widget.py:77-86 | a file of a quoted `NAME` line and a quoted `VERSION_ID` line gives `name version` |
| Info.SlurmLabelOf | src/slurmtop/_info_widget.py:94 | the output `slurm VERSION`, with any whitespace before, between and after the two words, gives `/ Slurm VERSION` |
| PyText.Split | src/slurmtop/_sinfo.py:63 | `split(sep)` gives one more piece than there are separators; no piece holds the separator; joining the pieces with it gives the text back |
| PyText.Words | src/slurmtop/_sinfo.py:19 | `split()` gives non-empty pieces without whitespace |
| PyText.WordsJoinRoundTrip | src/slurmtop/_sinfo.py:19 | words joined with single spaces split back into those words |
| PyText.WordsLayout | src/slurmtop/_sinfo.py:19 | words laid out with non-empty whitespace between them, and any whitespace before and after, split back into those words |
| PyText.ParseInt | src/slurmtop/_squeue_widget.py:123 | `int` accepts only texts made of digits, whitespace, signs and underscores; a plain digit string reads as its decimal value; a negative result comes from a text containing `-` |
| PyText.IntToDecimalRoundTrip | src/slurmtop/_squeue_widget.py:123 | `int(str(i))` is i for every integer i |
| PyText.NatToDecimal | src/slurmtop/_sinfo.py:80 | the decimal text of n is a non-empty digit string whose value is n, with no leading zero unless n is 0 |
| PyText.SlicePrefix | src/slurmtop/_data.py:124 | `[:n]` is a prefix: of length n capped at the length, and for negative n the length plus n, floored at 0 |
| PyText.RJust | src/slurmtop/_sinfo.py:75 | `rjust(w)` pads with spaces on the left to width w and ends with the text |
| PyText.StripChar | src/slurmtop/_info_widget.py:31 | `strip('"')` leaves a middle slice of the text: everything before it and after it is `"`, and the slice neither starts nor ends with `"` |

## Left out

- Running `squeue --json`, `sinfo -sh`, `squeue --sort P,t` and `sinfo -V`, decoding JSON and opening `/etc/os-release`: these are I/O. Their outputs are inputs: decoded job records, lines of text, an optional list of file lines (`None` for a missing file).
- `eval` on the parts of the quadruple: arbitrary expression evaluation is not modelled. A part is read as a strict decimal natural literal, as `sinfo` writes it.
- Floating point: the usage ratio is held exactly as a fraction. Its `round(..., 2)` text is a parameter (`show`) of the row builders. The float-then-`int` bar widths are modelled as exact floors of the rational values. That is exact when alloc and idle do not exceed the total, which always holds in the partition viewer, and the total stays far below 10^13. Otherwise `int(a/t*w)` can be one less than the floor (see `Partitions.SegmentWidths` below).
- `datetime.now()`, `datetime.fromtimestamp` and time zones: "now" is an integer count of microseconds and the start time an integer count of seconds, and both are parameters. One clock reading serves all jobs, whereas the source reads the clock once per job.
- Textual and Rich widgets, `DataTable` rendering, CSS, `set_interval` timers and `@work` tasks. Only the key functions, the toggle map and a stable sort standing for `DataTable.sort` are modelled.
- `SqueueMetricsViewer`: it shows hard-coded demonstration values.
- The user name, host name, `platform.system()` branch and clock text of the information line: these come from the environment.
- Python's `\d`, `int()` and `isdigit` also accept non-ASCII decimal digits. Only ASCII digits are modelled.
- Sorting.KeyLess: integer keys are placed before text keys only to make the order total. One sort never mixes the two kinds, and Python would raise `TypeError` if it did.
- Jobs.ElapsedFieldRoundTrip: requires fewer than 100000 days elapsed. Longer renderings exceed 20 characters and are truncated to `...`.
- Jobs.NodeNumberRoundTrip: requires a node count between 0 and 10^20, so that its text fits the 20-character field.
- Partitions.SegmentWidths: the widths are exact floors, whereas the source's float `int(alloc/total*width)` can round below them when alloc or idle exceeds the reported total. For the token `41/0/0/10`, `41/10*30` is `122.99999999999999` in IEEE doubles, so the source draws 122 alloc cells where the model has 123. `41/0/0/5` and `49/0/0/3` behave the same way.
- Partitions.CollectBarCells: requires alloc+idle not to exceed the reported total. Otherwise the third segment has a negative width, `"." * negative` is empty, and the bar has fewer than 30 cells.
- Partitions.BarRoundTrip: requires the ratio text not to start with `[`. A rendered float never does.
- Partitions.ViewerRow: the 25-cell fact assumes the ratio text does not start with `[`. A rendered float never does.
- Partitions.CollectCells: the 30-cell fact assumes alloc+idle does not exceed the reported total and the ratio text does not start with `[`, for the reasons above.
- Duration.TimeElapse: does not model the `ValueError` or `OverflowError` that `datetime.fromtimestamp` raises for start times outside its range (year 10000 and later, or beyond the platform's `time_t`). Such a job shows an empty or rendered field instead of failing.

=== FILE: duration.dfy ===
/** The two duration vocabularies of the monitor and the elapsed-time producer.

    - `TimeToSeconds` reads the scheduler's `D-HH:MM:SS` / `HH:MM:SS` / `MM:SS`
      text and falls back to 0 on a malformed value (src/slurmtop/_data.py).
    - `DatetimeToSeconds` reads the `N day(s), H:MM:SS` text that Python's
      `timedelta` renders and raises on a mismatch (src/slurmtop/_squeue_widget.py).
    - `TimeElapse` is the job sampler's elapsed-time field, which renders a
      `timedelta` and keeps what precedes the first `.` (src/slurmtop/_data.py). */
module Duration {
  import opened Results
  import opened PyText

  // ===========================================================================
  // time_to_seconds
  // ===========================================================================

  /** One numeric field accepted by `strptime`'s `%H`, `%M` or `%S`: one or two
      ASCII digits whose value is at most `max`. (The `%S` pattern also admits
      60 and 61, but building the `datetime` then raises, which ends in the same
      fallback; so the bound for seconds is 59.) */
  function ClockField(f: string, max: nat): (r: Option<nat>)
    ensures r.Some? ==> r.value <= max
  {
    if 1 <= |f| <= 2 && AllDigits(f) && DecimalValue(f) <= max then Some(DecimalValue(f)) else None
  }

  /** `datetime.strptime(s, "%H:%M:%S")`, as seconds since midnight: the whole
      string must be three such fields separated by colons. */
  function StrptimeHMS(s: string): (r: Option<nat>)
    ensures r.Some? ==> r.value < 86400
  {
    var f := Split(s, ':');
    if |f| != 3 then None
    else
      var h :- ClockField(f[0], 23);
      var m :- ClockField(f[1], 59);
      var sec :- ClockField(f[2], 59);
      Some(h * 3600 + m * 60 + sec)
  }

  /** `datetime.strptime(s, "%M:%S")`, as seconds. */
  function StrptimeMS(s: string): (r: Option<nat>)
    ensures r.Some? ==> r.value < 3600
  {
    var f := Split(s, ':');
    if |f| != 2 then None
    else
      var m :- ClockField(f[0], 59);
      var sec :- ClockField(f[1], 59);
      Some(m * 60 + sec)
  }

  /** The `D-HH:MM:SS` branch of `time_to_seconds`: the unpacking into exactly
      two pieces, `strptime` of the clock and `int` of the days, any failure
      falling back to 0. */
  function WithDays(s: string): (r: int)
    ensures 0 <= r
  {
    var parts := Split(s, '-');
    if |parts| != 2 then 0
    else
      match (StrptimeHMS(parts[1]), ParseInt(parts[0]))
      case (Some(t), Some(d)) =>
        assert '-' !in parts[0];
        d * 86400 + t
      case _ => 0
  }

  /** `time_to_seconds`. `None` is the Python function falling off its end
      (a hyphen-free string with no colon or more than two); every
      `ValueError` inside becomes `Some(0)`. */
  function TimeToSeconds(s: string): (r: Option<int>)
    ensures r.None? <==> '-' !in s && Count(s, ':') != 1 && Count(s, ':') != 2
    ensures r.Some? ==> 0 <= r.value
  {
    if '-' in s then Some(WithDays(s))
    else if Count(s, ':') == 2 then Some(StrptimeHMS(s).GetOr(0))
    else if Count(s, ':') == 1 then Some(StrptimeMS(s).GetOr(0))
    else None
  }

  /** Python's `"%02d" % n` (and `"%06d"` with `w == 6`). */
  function ZeroPad(n: nat, w: nat): string {
    Repeat("0", w - |NatToDecimal(n)|) + NatToDecimal(n)
  }

  function Pad2(n: nat): string {
    ZeroPad(n, 2)
  }

  lemma {:induction false} Pad2Digits(n: nat)
    requires n < 100
    ensures |Pad2(n)| == 2 && AllDigits(Pad2(n)) && DecimalValue(Pad2(n)) == n
  {
    var d := NatToDecimal(n);
    if n < 10 {
      assert d == [DigitChar(n)];
      assert Repeat("0", 1) == "0";
      assert Pad2(n) == ['0', DigitChar(n)];
      assert Pad2(n)[..1] == "0";
    } else {
      assert d == NatToDecimal(n / 10) + [DigitChar(n % 10)];
      assert NatToDecimal(n / 10) == [DigitChar(n / 10)];
      assert Pad2(n) == d;
    }
  }

  /** A two-digit field, as the scheduler writes hours, minutes and seconds. */
  predicate TwoDigits(f: string) {
    |f| == 2 && AllDigits(f)
  }

  /** The fields of a clock are within a day: hours below 24, minutes and seconds below 60. */
  predicate InDay(a: string, b: string, c: string)
    requires AllDigits(a) && AllDigits(b) && AllDigits(c)
  {
    DecimalValue(a) < 24 && DecimalValue(b) < 60 && DecimalValue(c) < 60
  }

  /** The scheduler's clock text `HH:MM:SS`. */
  function ClockFields(a: string, b: string, c: string): string {
    a + ":" + b + ":" + c
  }

  /** The scheduler's `D-HH:MM:SS` text. */
  function DurationFields(dd: string, a: string, b: string, c: string): string {
    dd + "-" + ClockFields(a, b, c)
  }

  lemma {:induction false} SplitThree(a: string, b: string, c: string, sep: char)
    requires sep !in a && sep !in b && sep !in c
    ensures Split(a + [sep] + b + [sep] + c, sep) == [a, b, c]
  {
    var bc := b + [sep] + c;
    assert Split(bc, sep) == [b, c] by {
      SplitWithoutSeparator(c, sep);
      SplitConcat(b, sep, c);
    }
    assert a + [sep] + b + [sep] + c == a + [sep] + bc;
    SplitConcat(a, sep, bc);
  }

  /** A clock of two-digit fields splits at its two colons and has no hyphen. */
  lemma {:induction false} SplitClock(a: string, b: string, c: string)
    requires TwoDigits(a) && TwoDigits(b) && TwoDigits(c)
    ensures Split(ClockFields(a, b, c), ':') == [a, b, c]
    ensures '-' !in ClockFields(a, b, c)
    ensures Count(ClockFields(a, b, c), ':') == 2
  {
    DigitsLack(a, ':');
    DigitsLack(b, ':');
    DigitsLack(c, ':');
    DigitsLack(a, '-');
    DigitsLack(b, '-');
    DigitsLack(c, '-');
    SplitThree(a, b, c, ':');
    assert ClockFields(a, b, c) == a + [':'] + b + [':'] + c;
  }

  /** A two-digit field is accepted by `strptime` exactly when it is in range. */
  lemma {:induction false} ClockFieldTwo(f: string, max: nat)
    requires TwoDigits(f)
    ensures ClockField(f, max) == if DecimalValue(f) <= max then Some(DecimalValue(f)) else None
  {
  }

  /** `strptime(s, "%H:%M:%S")` of a clock of two-digit fields: the seconds since
      midnight when every field is in range, an error otherwise. */
  lemma {:induction false} StrptimeClock(a: string, b: string, c: string)
    requires TwoDigits(a) && TwoDigits(b) && TwoDigits(c)
    ensures StrptimeHMS(ClockFields(a, b, c))
         == if InDay(a, b, c) then Some(DecimalValue(a) * 3600 + DecimalValue(b) * 60 + DecimalValue(c)) else None
  {
    SplitClock(a, b, c);
    ClockFieldTwo(a, 23);
    ClockFieldTwo(b, 59);
    ClockFieldTwo(c, 59);
  }

  /** The text `dd-c` with no hyphen in either part is unpacked into those two parts. */
  lemma {:induction false} SplitAtHyphen(dd: string, c: string)
    requires '-' !in dd && '-' !in c
    ensures '-' in dd + "-" + c && Split(dd + "-" + c, '-') == [dd, c]
  {
    assert dd + "-" + c == dd + ['-'] + c;
    assert (dd + "-" + c)[|dd|] == '-';
    SplitWithoutSeparator(c, '-');
    SplitConcat(dd, '-', c);
  }

  /** The hyphen branch reads the days with `int` and the clock with `strptime`,
      and falls back to 0 when the clock is rejected. */
  lemma {:induction false} WithDaysParts(s: string, dd: string, c: string)
    requires Split(s, '-') == [dd, c]
    requires ParseInt(dd).Some?
    ensures WithDays(s) == if StrptimeHMS(c).Some? then ParseInt(dd).value * 86400 + StrptimeHMS(c).value else 0
  {
  }

  lemma {:induction false} WithDaysOf(dd: string, a: string, b: string, c: string)
    requires 0 < |dd| && AllDigits(dd)
    requires TwoDigits(a) && TwoDigits(b) && TwoDigits(c)
    ensures '-' in DurationFields(dd, a, b, c)
    ensures WithDays(DurationFields(dd, a, b, c))
         == if InDay(a, b, c)
            then DecimalValue(dd) * 86400 + (DecimalValue(a) * 3600 + DecimalValue(b) * 60 + DecimalValue(c))
            else 0
  {
    var clock := ClockFields(a, b, c);
    SplitClock(a, b, c);
    DigitsLack(dd, '-');
    SplitAtHyphen(dd, clock);
    StrptimeClock(a, b, c);
    ParseIntDigits(dd);
    WithDaysParts(dd + "-" + clock, dd, clock);
  }

  /** `D-HH:MM:SS` reads as `D` days plus the clock, and as 0 when a clock field
      is out of range. */
  lemma {:induction false} TimeToSecondsWithDays(dd: string, a: string, b: string, c: string)
    requires 0 < |dd| && AllDigits(dd)
    requires TwoDigits(a) && TwoDigits(b) && TwoDigits(c)
    ensures TimeToSeconds(DurationFields(dd, a, b, c))
         == Some(if InDay(a, b, c)
                 then DecimalValue(dd) * 86400 + (DecimalValue(a) * 3600 + DecimalValue(b) * 60 + DecimalValue(c))
                 else 0)
  {
    WithDaysOf(dd, a, b, c);
    HyphenBranch(DurationFields(dd, a, b, c));
  }

  lemma {:induction false} HyphenBranch(s: string)
    requires '-' in s
    ensures TimeToSeconds(s) == Some(WithDays(s))
  {
  }

  lemma {:induction false} ColonBranch(s: string)
    requires '-' !in s && Count(s, ':') == 2
    ensures TimeToSeconds(s) == Some(StrptimeHMS(s).GetOr(0))
  {
  }

  /** `HH:MM:SS` reads as seconds since midnight, and as 0 when a field is out
      of range: `strptime` raises and the error is swallowed. */
  lemma {:induction false} TimeToSecondsClock(a: string, b: string, c: string)
    requires TwoDigits(a) && TwoDigits(b) && TwoDigits(c)
    ensures TimeToSeconds(ClockFields(a, b, c))
         == Some(if InDay(a, b, c) then DecimalValue(a) * 3600 + DecimalValue(b) * 60 + DecimalValue(c) else 0)
  {
    SplitClock(a, b, c);
    ColonBranch(ClockFields(a, b, c));
    StrptimeClock(a, b, c);
  }

  /** `MM:SS` reads as minutes and seconds, and as 0 when a field is out of range. */
  lemma {:induction false} TimeToSecondsMinutes(a: string, b: string)
    requires TwoDigits(a) && TwoDigits(b)
    ensures TimeToSeconds(a + ":" + b)
         == Some(if DecimalValue(a) < 60 && DecimalValue(b) < 60 then DecimalValue(a) * 60 + DecimalValue(b) else 0)
  {
    DigitsLack(a, ':');
    DigitsLack(b, ':');
    DigitsLack(a, '-');
    DigitsLack(b, '-');
    MinutesText(a, b);
    ClockFieldTwo(a, 59);
    ClockFieldTwo(b, 59);
  }

  /** `a:b` with colon-free, hyphen-free parts takes the `%M:%S` branch on those parts. */
  lemma {:induction false} MinutesText(a: string, b: string)
    requires ':' !in a && ':' !in b && '-' !in a && '-' !in b
    ensures TimeToSeconds(a + ":" + b) == Some(StrptimeMS(a + ":" + b).GetOr(0))
    ensures Split(a + ":" + b, ':') == [a, b]
  {
    assert a + ":" + b == a + [':'] + b;
    SplitWithoutSeparator(b, ':');
    SplitConcat(a, ':', b);
    assert '-' !in a + ":" + b;
  }

  /** More than one hyphen makes the unpacking raise: the value is 0. */
  lemma {:induction false} TimeToSecondsManyHyphens(s: string)
    requires 2 <= Count(s, '-')
    ensures TimeToSeconds(s) == Some(0)
  {
  }

  /** A character that is neither a digit nor a colon in an `HH:MM:SS`-shaped
      string makes `strptime` raise: the value is 0. */
  lemma {:induction false} TimeToSecondsNonNumeric(s: string, k: nat)
    requires '-' !in s && Count(s, ':') == 2
    requires k < |s| && !IsDigit(s[k]) && s[k] != ':'
    ensures TimeToSeconds(s) == Some(0)
  {
    var f := Split(s, ':');
    if StrptimeHMS(s).Some? {
      assert AllDigits(f[0]) && AllDigits(f[1]) && AllDigits(f[2]);
      JoinedCharacter(f, ':', k);
      assert false;
    }
  }

  /** A character that is neither a digit nor a colon in an `MM:SS`-shaped
      string makes `strptime` raise: the value is 0. */
  lemma {:induction false} TimeToSecondsMinutesNonNumeric(s: string, k: nat)
    requires '-' !in s && Count(s, ':') == 1
    requires k < |s| && !IsDigit(s[k]) && s[k] != ':'
    ensures TimeToSeconds(s) == Some(0)
  {
    var f := Split(s, ':');
    if StrptimeMS(s).Some? {
      assert AllDigits(f[0]) && AllDigits(f[1]);
      JoinedCharacter(f, ':', k);
      assert false;
    }
  }

  /** A day count `int` cannot read (a character other than digits, blanks,
      signs and underscores) makes the hyphen branch fall back to 0, whatever
      the clock. */
  lemma {:induction false} TimeToSecondsBadDays(dd: string, c: string, k: nat)
    requires '-' !in dd && '-' !in c
    requires k < |dd| && !IsIntChar(dd[k])
    ensures TimeToSeconds(dd + "-" + c) == Some(0)
  {
    SplitAtHyphen(dd, c);
  }

  /** Every character of a joined string is the separator or a character of one of the pieces. */
  lemma {:induction false} JoinedCharacter(parts: seq<string>, sep: char, k: nat)
    requires k < |JoinWith(parts, [sep])|
    ensures JoinWith(parts, [sep])[k] == sep
         || exists j, i :: 0 <= j < |parts| && 0 <= i < |parts[j]| && parts[j][i] == JoinWith(parts, [sep])[k]
  {
    var s := JoinWith(parts, [sep]);
    if |parts| == 1 {
      assert parts[0][k] == s[k];
    } else if |parts| > 1 {
      var rest := JoinWith(parts[1..], [sep]);
      assert s == parts[0] + [sep] + rest;
      if k < |parts[0]| {
        assert parts[0][k] == s[k];
      } else if k > |parts[0]| {
        var k' := k - |parts[0]| - 1;
        assert s[k] == rest[k'];
        JoinedCharacter(parts[1..], sep, k');
        if rest[k'] != sep {
          var j, i :| 0 <= j < |parts[1..]| && 0 <= i < |parts[1..][j]| && parts[1..][j][i] == rest[k'];
          assert parts[j + 1][i] == s[k];
        }
      }
    }
  }

  // ===========================================================================
  // datetime_to_seconds
  // ===========================================================================

  /** `\d+` at the start of `s`: the value of the longest digit run and the rest. */
  function TakeNumber(s: string): (r: Option<(nat, string)>)
    ensures r.Some? <==> 0 < |s| && IsDigit(s[0])
    ensures r.Some? ==> |r.value.1| < |s|
  {
    var n := RunLength(s, IsDigit);
    if n == 0 then None else Some((DecimalValue(s[..n]), s[n..]))
  }

  /** `\s+` (when `atLeastOne`) or `\s*` at the start of `s`: what follows the run. */
  function SkipSpaces(s: string, atLeastOne: bool): Option<string> {
    var n := RunLength(s, IsSpace);
    if atLeastOne && n == 0 then None else Some(s[n..])
  }

  /** The optional day group `(\d+)\s+days?\s*,\s+`: the day count and the rest. */
  function DayPrefix(s: string): Option<(nat, string)> {
    var d :- TakeNumber(s);
    var r :- DayWord(d.1);
    Some((d.0, r))
  }

  /** The part `\s+days?\s*,\s+` of the day group after its number. */
  function DayWord(s: string): Option<string> {
    var r1 :- SkipSpaces(s, true);
    var r2 :- TakeLiteral(r1, "day");
    var r3 := if 0 < |r2| && r2[0] == 's' then r2[1..] else r2;
    var r4 :- SkipSpaces(r3, false);
    var r5 :- TakeLiteral(r4, ",");
    SkipSpaces(r5, true)
  }

  /** `(\d+):(\d+):(\d+)` at the start of `s`, as seconds; whatever follows is ignored. */
  function ClockPrefix(s: string): Option<nat> {
    var h :- TakeNumber(s);
    var r1 :- TakeLiteral(h.1, ":");
    var m :- TakeNumber(r1);
    var r2 :- TakeLiteral(m.1, ":");
    var sec :- TakeNumber(r2);
    Some(h.0 * 3600 + m.0 * 60 + sec.0)
  }

  /** `re.match` of the verbose pattern: the day group is tried first and, if
      the clock does not follow it, the match is retried without it. Every run
      in the pattern is followed by a character the run cannot contain, so
      greedy matching never needs to give characters back. The pattern's
      second day alternative `(\d+)\s+day\s*,\s+` matches only where the first
      already does, so its group is never the one that captures. */
  function MatchVerbose(s: string): Option<nat> {
    var days := DayPrefix(s);
    if days.Some? && ClockPrefix(days.value.1).Some? then
      Some(days.value.0 * 86400 + ClockPrefix(days.value.1).value)
    else
      ClockPrefix(s)
  }

  datatype DurationError = InvalidTimeFormat(text: string)

  /** `s` starts with digit runs `a:b:c`, the last one not continued, and
      they are worth `x` seconds. */
  ghost predicate ClockAt(s: string, x: nat) {
    exists a, b, c, tail ::
      && 0 < |a| && AllDigits(a) && 0 < |b| && AllDigits(b) && 0 < |c| && AllDigits(c)
      && (|tail| == 0 || !IsDigit(tail[0]))
      && s == ClockJoin(a, b, c, tail)
      && x == DecimalValue(a) * 3600 + DecimalValue(b) * 60 + DecimalValue(c)
  }

  /** `datetime_to_seconds`: the empty string is 0, a text whose start matches
      the verbose pattern is its seconds, anything else raises. A text that
      reads starts with a clock `H:M:S`, or with a day group followed by one,
      and the value is what they are worth. */
  function DatetimeToSeconds(s: string): (r: Result<nat, DurationError>)
    ensures s == "" ==> r == Ok(0)
    ensures r.Err? ==> r.error == InvalidTimeFormat(s)
    ensures 0 < |s| && !IsDigit(s[0]) ==> r.Err?
    ensures r.Ok? && s != "" ==>
              || ClockAt(s, r.value)
              || (DayPrefix(s).Some? && exists x :: ClockAt(DayPrefix(s).value.1, x) && r.value == DayPrefix(s).value.0 * 86400 + x)
  {
    if s == "" then Ok(0)
    else
      match MatchVerbose(s)
      case Some(t) =>
        MatchVerboseShape(s);
        Ok(t)
      case None => Err(InvalidTimeFormat(s))
  }

  /** What a match of the verbose pattern covers. */
  lemma {:induction false} MatchVerboseShape(s: string)
    requires MatchVerbose(s).Some?
    ensures || ClockAt(s, MatchVerbose(s).value)
            || (&& DayPrefix(s).Some?
                && exists x :: ClockAt(DayPrefix(s).value.1, x) && MatchVerbose(s).value == DayPrefix(s).value.0 * 86400 + x)
  {
    var days := DayPrefix(s);
    if days.Some? && ClockPrefix(days.value.1).Some? {
      ClockPrefixShape(days.value.1);
    } else {
      ClockPrefixShape(s);
    }
  }

  /** A clock read at the start of `s` is digit runs `a:b:c` worth its value. */
  lemma {:induction false} ClockPrefixShape(s: string)
    requires ClockPrefix(s).Some?
    ensures ClockAt(s, ClockPrefix(s).value)
  {
    var h := TakeNumber(s).value;
    var r1 := TakeLiteral(h.1, ":").value;
    var m := TakeNumber(r1).value;
    var r2 := TakeLiteral(m.1, ":").value;
    var sec := TakeNumber(r2).value;
    ClockPrefixSteps(s, h.0, r1, m.0, r2, sec.0, sec.1);
    var a := TakenDigits(s);
    var b := TakenDigits(r1);
    var c := TakenDigits(r2);
    assert s == ClockJoin(a, b, c, sec.1);
    ClockAtOf(a, b, c, sec.1);
  }

  /** Digit runs `a:b:c`, the last one not continued, are a clock. */
  lemma {:induction false} ClockAtOf(a: string, b: string, c: string, tail: string)
    requires 0 < |a| && AllDigits(a) && 0 < |b| && AllDigits(b) && 0 < |c| && AllDigits(c)
    requires |tail| == 0 || !IsDigit(tail[0])
    ensures ClockAt(ClockJoin(a, b, c, tail), DecimalValue(a) * 3600 + DecimalValue(b) * 60 + DecimalValue(c))
  {
  }

  /** The digit run `TakeNumber` reads off the start of `s`. */
  lemma {:induction false} TakenDigits(s: string) returns (d: string)
    requires TakeNumber(s).Some?
    ensures 0 < |d| && AllDigits(d) && s == d + TakeNumber(s).value.1
    ensures TakeNumber(s).value.0 == DecimalValue(d)
    ensures var t := TakeNumber(s).value.1; |t| == 0 || !IsDigit(t[0])
  {
    var n := RunLength(s, IsDigit);
    d := s[..n];
    assert forall i :: 0 <= i < n ==> d[i] == s[i];
    assert s == d + s[n..];
  }

  /** `MM:SS` has no third field, so it does not read. */
  lemma {:induction false} MinutesOnlyRaises()
    ensures DatetimeToSeconds("12:34") == Err(InvalidTimeFormat("12:34"))
  {
    var s := "12:34";
    TakeNumberConcat("12", ":34");
    assert s == "12" + ":34";
    assert SkipSpaces(":34", true).None?;
    TakeLiteralOf(":", "34");
    assert ":34" == ":" + "34";
    TakeNumberConcat("34", "");
    assert "34" + "" == "34";
    assert ClockPrefix(s).None?;
  }

  /** A digit string followed by a non-digit is read as its value. */
  lemma {:induction false} TakeNumberConcat(a: string, t: string)
    requires 0 < |a| && AllDigits(a)
    requires |t| == 0 || !IsDigit(t[0])
    ensures TakeNumber(a + t) == Some((DecimalValue(a), t))
  {
    RunLengthConcat(a, t, IsDigit);
    assert (a + t)[..|a|] == a;
    assert (a + t)[|a|..] == t;
  }

  lemma {:induction false} ClockPrefixSteps(s: string, x: nat, r1: string, y: nat, r2: string, z: nat, t: string)
    requires TakeNumber(s) == Some((x, ":" + r1))
    requires TakeNumber(r1) == Some((y, ":" + r2))
    requires TakeNumber(r2) == Some((z, t))
    ensures ClockPrefix(s) == Some(x * 3600 + y * 60 + z)
  {
    assert TakeLiteral(":" + r1, ":") == Some(r1);
    assert TakeLiteral(":" + r2, ":") == Some(r2);
  }

  /** The text `a:b:c` followed by `tail`, with the concatenation grouped to the right. */
  function ClockJoin(a: string, b: string, c: string, tail: string): string {
    a + (":" + (b + (":" + (c + tail))))
  }

  /** `H:M:S` with digit runs of any length (no range check) followed by
      anything that does not continue the last run. */
  lemma {:induction false} ClockPrefixOf(a: string, b: string, c: string, tail: string)
    requires 0 < |a| && AllDigits(a) && 0 < |b| && AllDigits(b) && 0 < |c| && AllDigits(c)
    requires |tail| == 0 || !IsDigit(tail[0])
    ensures ClockPrefix(ClockJoin(a, b, c, tail)).Some?
    ensures ClockPrefix(ClockJoin(a, b, c, tail)).value
         == DecimalValue(a) * 3600 + DecimalValue(b) * 60 + DecimalValue(c)
  {
    var r2 := c + tail;
    var r1 := b + (":" + r2);
    var s := a + (":" + r1);
    TakeNumberConcat(a, ":" + r1);
    TakeNumberConcat(b, ":" + r2);
    TakeNumberConcat(c, tail);
    var x, y, z := DecimalValue(a), DecimalValue(b), DecimalValue(c);
    ClockPrefixSteps(s, x, r1, y, r2, z, tail);
  }

  /** One space before a non-space character is skipped. */
  lemma {:induction false} SpaceThen(t: string)
    requires 0 < |t| && !IsSpace(t[0])
    ensures SkipSpaces(" " + t, true) == Some(t)
  {
    RunLengthConcat(" ", t, IsSpace);
    assert (" " + t)[1..] == t;
  }

  /** Optional spaces before a non-space character skip nothing. */
  lemma {:induction false} NoSpace(t: string)
    requires 0 < |t| && !IsSpace(t[0])
    ensures SkipSpaces(t, false) == Some(t)
  {
  }

  /** The rendering's `, ` after the word `day` or `days`. */
  lemma {:induction false} CommaSpace(rest: string)
    requires 0 < |rest| && IsDigit(rest[0])
    ensures SkipSpaces(", " + rest, false) == Some(", " + rest)
    ensures TakeLiteral(", " + rest, ",") == Some(" " + rest)
    ensures SkipSpaces(" " + rest, true) == Some(rest)
  {
    assert ", " + rest == "," + (" " + rest);
    TakeLiteralOf(",", " " + rest);
    NoSpace(", " + rest);
    DigitIsNotSpace(rest[0]);
    SpaceThen(rest);
  }

  /** A literal prefix is taken off exactly. */
  lemma {:induction false} TakeLiteralOf(lit: string, t: string)
    ensures TakeLiteral(lit + t, lit) == Some(t)
  {
    assert (lit + t)[..|lit|] == lit;
    assert (lit + t)[|lit|..] == t;
  }

  /** The steps of the day-word match, each one from the remainder of the last. */
  lemma {:induction false} DayWordSteps(s: string, r1: string, r2: string, r3: string, r5: string, out: string)
    requires SkipSpaces(s, true) == Some(r1)
    requires TakeLiteral(r1, "day") == Some(r2)
    requires r3 == if 0 < |r2| && r2[0] == 's' then r2[1..] else r2
    requires SkipSpaces(r3, false) == Some(r3)
    requires TakeLiteral(r3, ",") == Some(r5)
    requires SkipSpaces(r5, true) == Some(out)
    ensures DayWord(s) == Some(out)
  {
  }

  lemma {:induction false} DayWordOf(word: string, rest: string)
    requires word == " day, " || word == " days, "
    requires 0 < |rest| && IsDigit(rest[0])
    ensures DayWord(word + rest) == Some(rest)
  {
    var r3 := ", " + rest;
    var tail := if word == " day, " then r3 else "s" + r3;
    assert word + rest == " " + ("day" + tail);
    SpaceThen("day" + tail);
    TakeLiteralOf("day", tail);
    assert r3 == if 0 < |tail| && tail[0] == 's' then tail[1..] else tail;
    CommaSpace(rest);
    DayWordSteps(word + rest, "day" + tail, tail, r3, " " + rest, rest);
  }

  /** The day group `D day, ` or `D days, ` is read as `D`. */
  lemma {:induction false} DayPrefixOf(dd: string, word: string, rest: string)
    requires 0 < |dd| && AllDigits(dd)
    requires word == " day, " || word == " days, "
    requires 0 < |rest| && IsDigit(rest[0])
    ensures DayPrefix(dd + (word + rest)).Some?
    ensures DayPrefix(dd + (word + rest)).value == (DecimalValue(dd), rest)
  {
    TakeNumberConcat(dd, word + rest);
    DayWordOf(word, rest);
  }

  /** A text that starts with a clock and no day group is read as the clock alone. */
  lemma {:induction false} MatchClockOnly(a: string, rest: string)
    requires 0 < |a| && AllDigits(a)
    requires ClockPrefix(a + (":" + rest)).Some?
    ensures DatetimeToSeconds(a + (":" + rest)).Ok?
    ensures DatetimeToSeconds(a + (":" + rest)).value == ClockPrefix(a + (":" + rest)).value
  {
    TakeNumberConcat(a, ":" + rest);
    assert SkipSpaces(":" + rest, true).None?;
    assert DayPrefix(a + (":" + rest)).None?;
  }

  /** A text whose day group is followed by a clock is read as both. */
  lemma {:induction false} MatchDaysAndClock(s: string)
    requires DayPrefix(s).Some? && ClockPrefix(DayPrefix(s).value.1).Some?
    ensures DatetimeToSeconds(s).Ok?
    ensures DatetimeToSeconds(s).value
         == DayPrefix(s).value.0 * 86400 + ClockPrefix(DayPrefix(s).value.1).value
  {
    assert TakeNumber(s).Some?;
  }

  /** Digit runs `a:b:c` of any length, followed by a text that does not continue `c`. */
  lemma {:induction false} ReadClock(a: string, b: string, c: string, tail: string)
    requires 0 < |a| && AllDigits(a) && 0 < |b| && AllDigits(b) && 0 < |c| && AllDigits(c)
    requires |tail| == 0 || !IsDigit(tail[0])
    ensures DatetimeToSeconds(ClockJoin(a, b, c, tail)).Ok?
    ensures DatetimeToSeconds(ClockJoin(a, b, c, tail)).value
         == DecimalValue(a) * 3600 + DecimalValue(b) * 60 + DecimalValue(c)
  {
    ClockPrefixOf(a, b, c, tail);
    MatchClockOnly(a, b + (":" + (c + tail)));
  }

  /** A day group followed by digit runs `a:b:c`. */
  lemma {:induction false} ReadDaysClock(dd: string, word: string, a: string, b: string, c: string, tail: string)
    requires 0 < |dd| && AllDigits(dd)
    requires word == " day, " || word == " days, "
    requires 0 < |a| && AllDigits(a) && 0 < |b| && AllDigits(b) && 0 < |c| && AllDigits(c)
    requires |tail| == 0 || !IsDigit(tail[0])
    ensures DatetimeToSeconds(dd + (word + ClockJoin(a, b, c, tail))).Ok?
    ensures DatetimeToSeconds(dd + (word + ClockJoin(a, b, c, tail))).value
         == DecimalValue(dd) * 86400 + (DecimalValue(a) * 3600 + DecimalValue(b) * 60 + DecimalValue(c))
  {
    var rest := ClockJoin(a, b, c, tail);
    assert rest[0] == a[0];
    DayPrefixOf(dd, word, rest);
    ClockPrefixOf(a, b, c, tail);
    MatchDaysAndClock(dd + (word + rest));
  }

  /** A successful read, restated as one equation. */
  lemma {:induction false} ReadAs(s: string, x: nat)
    requires DatetimeToSeconds(s).Ok? && DatetimeToSeconds(s).value == x
    ensures DatetimeToSeconds(s) == Ok(x)
  {
  }

  // ===========================================================================
  // The elapsed-time producer
  // ===========================================================================

  /** Python's `str(timedelta)` of `d` days and an in-day clock: `H:MM:SS`,
      preceded by `D day, ` or `D days, ` when at least one whole day has passed. */
  function ClockTextOf(d: nat, h: nat, m: nat, sec: nat): (r: string)
    requires m < 60 && sec < 60
    ensures 0 < |r| && IsDigit(r[0]) && '.' !in r
    ensures d < 100000 && h < 24 ==> |r| <= 20
  {
    Pad2Digits(m);
    Pad2Digits(sec);
    DigitsLack(NatToDecimal(h), '.');
    DigitsLack(Pad2(m), '.');
    DigitsLack(Pad2(sec), '.');
    DigitsLack(NatToDecimal(d), '.');
    ShortDecimal(h, 2, 100);
    ShortDecimal(d, 5, 100000);
    var hms := ClockJoin(NatToDecimal(h), Pad2(m), Pad2(sec), "");
    if d == 0 then hms
    else NatToDecimal(d) + ((if d == 1 then " day, " else " days, ") + hms)
  }

  /** A number below `10^k` has at most `k` digits. */
  lemma {:induction false} ShortDecimal(n: nat, k: nat, bound: nat)
    requires 0 < k && bound == Pow10(k)
    ensures n < bound ==> |NatToDecimal(n)| <= k
  {
    if n < bound {
      NatToDecimalLength(n, k);
    }
  }

  /** Python's `str(timedelta(seconds=n))` for `n >= 0`. */
  function ClockText(n: nat): (r: string)
    ensures 0 < |r| && IsDigit(r[0]) && '.' !in r
    ensures n < 8640000000 ==> |r| <= 20
  {
    ClockTextOf(n / 86400, n % 86400 / 3600, n % 3600 / 60, n % 60)
  }

  /** Python's `str(timedelta(microseconds=us))` for `us >= 0`: the clock text,
      then `.ffffff` when there is a fractional second. */
  function TimedeltaText(us: nat): string {
    var frac := us % 1000000;
    ClockText(us / 1000000) + (if frac == 0 then "" else "." + ZeroPad(frac, 6))
  }

  /** The `time_elapse` field: empty for a job that has not started
      (`start_time <= 0`) or whose start lies after `now` (clock skew);
      otherwise `str(now - start).split(".")[0]`, which drops exactly the
      fractional second and leaves the rendering of the whole seconds
      elapsed. `startTime` is in seconds since the epoch, `nowMicros` in
      microseconds since the epoch. */
  function TimeElapse(startTime: int, nowMicros: int): (r: string)
    ensures r == "" <==> startTime <= 0 || nowMicros < startTime * 1000000
    ensures startTime > 0 && startTime * 1000000 <= nowMicros
            ==> r == ClockText((nowMicros - startTime * 1000000) / 1000000)
  {
    if startTime > 0 then ElapsedText(nowMicros - startTime * 1000000) else ""
  }

  /** The elapsed-time field for a delta of `us` microseconds: empty when the
      delta is negative, which is the `end_time < start_time` guard (Python
      itself would render a negative delta as `-1 day, ...`), and otherwise
      `str(delta).split(".")[0]`. */
  function ElapsedText(us: int): (r: string)
    ensures r == "" <==> us < 0
    ensures 0 <= us ==> r == ClockText(us / 1000000)
  {
    if us < 0 then ""
    else
      TimedeltaHead(us);
      Split(TimedeltaText(us), '.')[0]
  }

  /** The text before the first `.` of a `timedelta` rendering is its clock text. */
  lemma {:induction false} TimedeltaHead(us: nat)
    ensures Split(TimedeltaText(us), '.')[0] == ClockText(us / 1000000)
  {
    var c := ClockText(us / 1000000);
    var suffix := if us % 1000000 == 0 then "" else "." + ZeroPad(us % 1000000, 6);
    assert TimedeltaText(us) == c + suffix;
    HeadBeforeDot(c, suffix);
  }

  /** Splitting at `.` keeps a dot-free head whatever follows from the first dot on. */
  lemma {:induction false} HeadBeforeDot(c: string, suffix: string)
    requires '.' !in c
    requires suffix == [] || suffix[0] == '.'
    ensures Split(c + suffix, '.')[0] == c
  {
    if suffix == [] {
      assert c + suffix == c;
      SplitWithoutSeparator(c, '.');
    } else {
      assert c + suffix == c + ['.'] + suffix[1..];
      SplitConcat(c, '.', suffix[1..]);
    }
  }

  /** Whole seconds split into days, hours, minutes and seconds add back up. */
  lemma {:induction false} ClockArithmetic(n: nat)
    ensures n == n / 86400 * 86400 + (n % 86400 / 3600 * 3600 + n % 3600 / 60 * 60 + n % 60)
  {
    var rem := n % 86400;
    assert n == n / 86400 * 86400 + rem;
    SplitSeconds(rem);
    ModOfMod(n);
  }

  /** Seconds split into hours, minutes and seconds add back up. */
  lemma {:induction false} SplitSeconds(r: nat)
    ensures r == r / 3600 * 3600 + (r % 3600 / 60 * 60 + r % 3600 % 60)
  {
    assert r == r / 3600 * 3600 + r % 3600;
    assert r % 3600 == r % 3600 / 60 * 60 + r % 3600 % 60;
  }

  /** A day is a whole number of hours and an hour a whole number of minutes. */
  lemma {:induction false} ModOfMod(n: nat)
    ensures n % 86400 % 3600 == n % 3600
    ensures n % 3600 % 60 == n % 60
  {
    var q := n / 86400;
    assert n % 86400 == (n / 3600 - q * 24) * 3600 + n % 3600;
    var p := n / 3600;
    assert n % 3600 == (n / 60 - p * 60) * 60 + n % 60;
  }

  /** Round trip of one rendering: the verbose reader recovers the days and the clock. */
  lemma {:induction false} ClockTextOfRoundTrip(t: string, n: nat, d: nat, h: nat, m: nat, sec: nat)
    requires m < 60 && sec < 60
    requires t == ClockTextOf(d, h, m, sec)
    requires n == d * 86400 + (h * 3600 + m * 60 + sec)
    ensures DatetimeToSeconds(t) == Ok(n)
  {
    var a, b, c := NatToDecimal(h), Pad2(m), Pad2(sec);
    Pad2Digits(m);
    Pad2Digits(sec);
    var hms := ClockJoin(a, b, c, "");
    assert DatetimeToSeconds(t).Ok? && DatetimeToSeconds(t).value == n by {
      if d == 0 {
        assert t == hms;
        ReadClock(a, b, c, "");
      } else {
        var word := if d == 1 then " day, " else " days, ";
        assert t == NatToDecimal(d) + (word + hms);
        ReadDaysClock(NatToDecimal(d), word, a, b, c, "");
      }
    }
    ReadAs(t, n);
  }

  /** Round trip: the verbose reader inverts the `timedelta` rendering. */
  lemma {:induction false} ClockTextRoundTrip(n: nat)
    ensures DatetimeToSeconds(ClockText(n)) == Ok(n)
  {
    var d, h, m, sec := n / 86400, n % 86400 / 3600, n % 3600 / 60, n % 60;
    ClockArithmetic(n);
    ClockTextOfRoundTrip(ClockText(n), n, d, h, m, sec);
  }

  /** The producer/reader pair: the verbose reader recovers the whole seconds
      elapsed from every `time_elapse` field, and 0 from an empty one. */
  lemma {:induction false} TimeElapseRoundTrip(startTime: int, nowMicros: int)
    ensures DatetimeToSeconds(TimeElapse(startTime, nowMicros))
         == Ok(if startTime <= 0 || nowMicros < startTime * 1000000 then 0
               else (nowMicros - startTime * 1000000) / 1000000)
  {
    forall n: nat ensures DatetimeToSeconds(ClockText(n)) == Ok(n) {
      ClockTextRoundTrip(n);
    }
  }

  /** A job started 3661 seconds before the sample reads `1:01:01`. */
  lemma {:induction false} TimeElapseOneHourOneMinuteOneSecond(startTime: int)
    requires startTime > 0
    ensures TimeElapse(startTime, (startTime + 3661) * 1000000) == "1:01:01"
  {
    forall n: nat | n == 3661 ensures ClockText(n) == "1:01:01" {
      ClockTextOneHourOneMinuteOneSecond(n);
    }
  }

  lemma {:induction false} ClockTextOneHourOneMinuteOneSecond(n: nat)
    requires n == 3661
    ensures ClockText(n) == "1:01:01"
  {
    assert n / 86400 == 0 && n % 86400 / 3600 == 1 && n % 3600 / 60 == 1 && n % 60 == 1;
    assert NatToDecimal(1) == "1";
    assert Pad2(1) == "01" by {
      Pad2Digits(1);
      assert Repeat("0", 1) == "0";
    }
  }
}

=== FILE: info.dfy ===
/** The text parsing of the information line, src/slurmtop/_info_widget.py:
    `get_os_release_info` over the lines of `/etc/os-release`, the system
    string built from its result, and the Slurm label cut from the output of
    `sinfo -V`. The file's lines and the command's output are inputs; a
    missing file is `None`. */
module Info {
  import opened Results
  import opened PyText

  // ===========================================================================
  // get_os_release_info
  // ===========================================================================

  /** `s.split(c, 1)` when `c` occurs in `s`: the text before the first `c`
      and everything after it. */
  function SplitAtFirst(s: string, c: char): (r: (string, string))
    requires c in s
    ensures s == r.0 + [c] + r.1 && c !in r.0
  {
    if s[0] == c then ("", s[1..])
    else
      var rest := SplitAtFirst(s[1..], c);
      assert s == [s[0]] + s[1..];
      ([s[0]] + rest.0, rest.1)
  }

  /** The two halves are the only ones with the first `c` between them. */
  lemma {:induction false} SplitAtFirstUnique(before: string, c: char, after: string)
    requires c !in before
    ensures SplitAtFirst(before + [c] + after, c) == (before, after)
  {
    var s := before + [c] + after;
    if |before| > 0 {
      assert s[0] == before[0] && before[0] != c;
      assert s[1..] == before[1..] + [c] + after;
      SplitAtFirstUnique(before[1..], c, after);
      assert before == [before[0]] + before[1..];
    }
  }

  /** One line of the file: a blank line and a line without `=` add
      nothing; otherwise the right-stripped line is split at its first `=`
      and the value loses its surrounding double quotes. */
  function ParseLine(line: string): (r: Option<(string, string)>)
    ensures r.Some? <==> Strip(line) != "" && '=' in line
    ensures r.Some? ==> '=' !in r.value.0 && r.value.0 <= line
    ensures r.Some? ==> |r.value.1| == 0 || (r.value.1[0] != '"' && r.value.1[|r.value.1| - 1] != '"')
    ensures r.Some? ==> exists rest :: RStrip(line) == r.value.0 + "=" + rest && r.value.1 == StripChar(rest, '"')
  {
    if Strip(line) == "" then None
    else if '=' in line then
      var t := RStrip(line);
      RStripKeepsEquals(line);
      var (key, value) := SplitAtFirst(t, '=');
      KeyOfLine(line, key, value);
      Some((key, StripChar(value, '"')))
    else None
  }

  /** Right-stripping keeps every `=`, since `=` is not whitespace. */
  lemma {:induction false} RStripKeepsEquals(line: string)
    requires '=' in line
    ensures '=' in RStrip(line)
  {
    var t := RStrip(line);
    var i :| 0 <= i < |line| && line[i] == '=';
    assert !IsSpace(line[i]);
    assert i < |t| && t[i] == '=';
  }

  /** The key split off the right-stripped line is a prefix of the line. */
  lemma {:induction false} KeyOfLine(line: string, key: string, value: string)
    requires RStrip(line) == key + ['='] + value
    ensures key <= line && RStrip(line) == key + "=" + value
  {
    var t := RStrip(line);
    assert key <= t;
    assert t <= line;
  }

  /** Whether a parsed line sets `key`. */
  predicate Sets(e: Option<(string, string)>, key: string) {
    e.Some? && e.value.0 == key
  }

  /** Records one parsed line in the map. */
  function Record(m: map<string, string>, e: Option<(string, string)>): map<string, string> {
    match e
    case None => m
    case Some((k, v)) => m[k := v]
  }

  /** The loop over the parsed lines, starting from the map `m`. */
  function Update(m: map<string, string>, es: seq<Option<(string, string)>>): (r: map<string, string>)
    ensures forall k :: k in r <==> k in m || exists i :: 0 <= i < |es| && Sets(es[i], k)
    decreases |es|
  {
    if |es| == 0 then m
    else
      var r := Update(Record(m, es[0]), es[1..]);
      assert forall i :: 1 <= i < |es| ==> es[1..][i - 1] == es[i];
      r
  }

  /** Every line of the file, parsed. */
  function ParseLines(lines: seq<string>): (es: seq<Option<(string, string)>>)
    ensures |es| == |lines| && forall i :: 0 <= i < |lines| ==> es[i] == ParseLine(lines[i])
  {
    if |lines| == 0 then []
    else
      var es := [ParseLine(lines[0])] + ParseLines(lines[1..]);
      assert forall i :: 1 <= i < |lines| ==> lines[1..][i - 1] == lines[i];
      es
  }

  lemma {:induction false} ParseLinesConcat(a: seq<string>, b: seq<string>)
    ensures ParseLines(a + b) == ParseLines(a) + ParseLines(b)
  {
    if |a| == 0 {
      assert a + b == b;
    } else {
      assert (a + b)[1..] == a[1..] + b && (a + b)[0] == a[0];
      ParseLinesConcat(a[1..], b);
    }
  }

  /** `get_os_release_info()`: the settings of the file's lines, or the two
      fixed entries when the file does not exist. */
  function OsReleaseInfo(file: Option<seq<string>>): (r: map<string, string>)
    ensures file.None? ==> r == map["NAME" := "Unknown Linux", "VERSION_ID" := "Unknown Version"]
    ensures file.Some? ==> forall k :: k in r <==> exists i :: 0 <= i < |file.value| && Sets(ParseLine(file.value[i]), k)
  {
    match file
    case None => map["NAME" := "Unknown Linux", "VERSION_ID" := "Unknown Version"]
    case Some(lines) =>
      var es := ParseLines(lines);
      Update(map[], es)
  }

  /** Processing lines one after another is processing their concatenation. */
  lemma {:induction false} UpdateConcat(m: map<string, string>, a: seq<Option<(string, string)>>, b: seq<Option<(string, string)>>)
    ensures Update(m, a + b) == Update(Update(m, a), b)
    decreases |a|
  {
    if |a| > 0 {
      assert (a + b)[1..] == a[1..] + b;
      UpdateConcat(Record(m, a[0]), a[1..], b);
    } else {
      assert a + b == b;
    }
  }

  /** A blank line, or one without `=`, parses to no entry. */
  lemma {:induction false} IgnoredParse(line: string)
    requires Strip(line) == "" || '=' !in line
    ensures ParseLines([line]) == [None]
  {
    assert ParseLine(line) == None;
    assert [line][1..] == [];
  }

  /** A blank line, or one without `=`, changes nothing wherever it stands. */
  lemma {:induction false} IgnoredLine(a: seq<string>, line: string, b: seq<string>)
    requires Strip(line) == "" || '=' !in line
    ensures OsReleaseInfo(Some(a + [line] + b)) == OsReleaseInfo(Some(a + b))
  {
    var pa := ParseLines(a);
    var pb := ParseLines(b);
    IgnoredParse(line);
    ParseLinesConcat(a, [line]);
    ParseLinesConcat(a + [line], b);
    ParseLinesConcat(a, b);
    IgnoredEntry(pa, pb);
  }

  /** A line that parses to nothing leaves the map alone. */
  lemma {:induction false} IgnoredEntry(pa: seq<Option<(string, string)>>, pb: seq<Option<(string, string)>>)
    ensures Update(map[], pa + [None] + pb) == Update(map[], pa + pb)
  {
    var skip: seq<Option<(string, string)>> := [None];
    UpdateConcat(map[], pa + skip, pb);
    UpdateConcat(map[], pa, skip);
    UpdateConcat(map[], pa, pb);
    assert Update(Update(map[], pa), skip) == Update(map[], pa) by {
      assert skip[1..] == [];
    }
  }

  /** A key no line sets keeps its value. */
  lemma {:induction false} UpdateUntouched(m: map<string, string>, es: seq<Option<(string, string)>>, key: string)
    requires key in m && forall i :: 0 <= i < |es| ==> !Sets(es[i], key)
    ensures Update(m, es)[key] == m[key]
    decreases |es|
  {
    if |es| > 0 {
      assert forall i :: 1 <= i < |es| ==> es[1..][i - 1] == es[i];
      UpdateUntouched(Record(m, es[0]), es[1..], key);
    }
  }

  /** The value of a key is the one its last setting line gives. */
  lemma {:induction false} UpdateLast(m: map<string, string>, es: seq<Option<(string, string)>>, i: nat)
    requires i < |es| && es[i].Some?
    requires forall j :: i < j < |es| ==> !Sets(es[j], es[i].value.0)
    ensures Update(m, es)[es[i].value.0] == es[i].value.1
    decreases |es|
  {
    assert forall j :: 1 <= j < |es| ==> es[1..][j - 1] == es[j];
    if i == 0 {
      UpdateUntouched(Record(m, es[0]), es[1..], es[0].value.0);
    } else {
      UpdateLast(Record(m, es[0]), es[1..], i - 1);
    }
  }

  /** In the file's settings, a later line for the same key overrides an earlier one. */
  lemma {:induction false} LastSettingWins(lines: seq<string>, i: nat)
    requires i < |lines| && ParseLine(lines[i]).Some?
    requires forall j :: i < j < |lines| ==> !Sets(ParseLine(lines[j]), ParseLine(lines[i]).value.0)
    ensures OsReleaseInfo(Some(lines))[ParseLine(lines[i]).value.0] == ParseLine(lines[i]).value.1
  {
    var es := ParseLines(lines);
    assert OsReleaseInfo(Some(lines)) == Update(map[], es);
    UpdateLast(map[], es, i);
  }

  /** Right-stripping a line whose last character is a newline after a
      non-space character removes exactly the newline. */
  lemma {:induction false} RStripNewline(t: string)
    requires 0 < |t| && !IsSpace(t[|t| - 1])
    ensures RStrip(t + "\n") == t
  {
    assert (t + "\n")[..|t|] == t;
  }

  /** Right-stripping removes exactly a whitespace tail after a non-space character. */
  lemma {:induction false} RStripSpaces(t: string, trail: string)
    requires 0 < |t| && !IsSpace(t[|t| - 1]) && AllSpace(trail)
    ensures RStrip(t + trail) == t
    decreases |trail|
  {
    if |trail| == 0 {
      assert t + trail == t;
    } else {
      var s := t + trail;
      assert IsSpace(s[|s| - 1]);
      assert s[..|s| - 1] == t + trail[..|trail| - 1];
      RStripSpaces(t, trail[..|trail| - 1]);
    }
  }

  /** Stripping double quotes leaves a value alone whose ends are not quotes. */
  lemma {:induction false} UnquotedValue(v: string)
    requires |v| == 0 || (v[0] != '"' && v[|v| - 1] != '"')
    ensures StripChar(v, '"') == v
  {
    assert RStripChar(v, '"') == v;
  }

  /** Stripping double quotes from a quoted value whose own ends are not quotes. */
  lemma {:induction false} UnquoteQuoted(v: string)
    requires |v| == 0 || (v[0] != '"' && v[|v| - 1] != '"')
    ensures StripChar("\"" + v + "\"", '"') == v
  {
    var q := "\"" + v + "\"";
    assert q[..|q| - 1] == "\"" + v;
    if |v| == 0 {
      assert RStripChar("\"", '"') == "";
    } else {
      assert RStripChar(q, '"') == "\"" + v;
      assert ("\"" + v)[1..] == v;
    }
  }

  /** The reading of a non-blank line with an `=`, step by step. */
  lemma {:induction false} ParseLineSteps(line: string, t: string, key: string, rest: string, value: string)
    requires Strip(line) != "" && '=' in line
    requires RStrip(line) == t && '=' in t && SplitAtFirst(t, '=') == (key, rest)
    requires StripChar(rest, '"') == value
    ensures ParseLine(line) == Some((key, value))
  {
  }

  /** A `KEY="value"` line of the file, with its line end, reads back as
      the key and the value. */
  lemma {:induction false} ParseLineRoundTrip(line: string, key: string, value: string)
    requires '=' !in key
    requires |value| == 0 || (value[0] != '"' && value[|value| - 1] != '"')
    requires line == key + "=\"" + value + "\"\n"
    ensures ParseLine(line) == Some((key, value))
  {
    var quoted := "\"" + value + "\"";
    var t := key + ['='] + quoted;
    assert line == t + "\n";
    assert t[|key|] == '=' && line[|key|] == '=';
    assert RStrip(line) == t by {
      assert !IsSpace(t[|t| - 1]);
      RStripNewline(t);
    }
    assert Strip(line) != "" by {
      assert !IsSpace(line[|key|]);
      var r := RStripBy(line, IsSpace);
      assert |key| < |r|;
    }
    assert SplitAtFirst(t, '=') == (key, quoted) by {
      SplitAtFirstUnique(key, '=', quoted);
    }
    assert StripChar(quoted, '"') == value by {
      UnquoteQuoted(value);
    }
    ParseLineSteps(line, t, key, quoted, value);
  }

  /** An unquoted `KEY=value` line, with any whitespace after it, reads back
      as the key and the value. */
  lemma {:induction false} ParseLineUnquoted(line: string, key: string, value: string, trail: string)
    requires '=' !in key
    requires |value| == 0 || (value[0] != '"' && value[|value| - 1] != '"' && !IsSpace(value[|value| - 1]))
    requires AllSpace(trail)
    requires line == key + "=" + value + trail
    ensures ParseLine(line) == Some((key, value))
  {
    var t := key + ['='] + value;
    assert line == t + trail;
    assert t[|key|] == '=' && line[|key|] == '=';
    assert RStrip(line) == t by {
      assert !IsSpace(t[|t| - 1]) by {
        if |value| > 0 {
          assert t[|t| - 1] == value[|value| - 1];
        }
      }
      RStripSpaces(t, trail);
    }
    assert Strip(line) != "" by {
      assert !IsSpace(line[|key|]);
      var r := RStripBy(line, IsSpace);
      assert |key| < |r|;
    }
    assert SplitAtFirst(t, '=') == (key, value) by {
      SplitAtFirstUnique(key, '=', value);
    }
    UnquotedValue(value);
    ParseLineSteps(line, t, key, value, value);
  }

  // ===========================================================================
  // The system and Slurm strings
  // ===========================================================================

  /** On Linux: the name (or `Unknown Linux`) followed by the version when
      the file gives one, joined with a space. */
  function SystemString(info: map<string, string>): (r: string)
    ensures "VERSION_ID" !in info ==> r == (if "NAME" in info then info["NAME"] else "Unknown Linux")
    ensures "VERSION_ID" in info ==> r == (if "NAME" in info then info["NAME"] else "Unknown Linux") + " " + info["VERSION_ID"]
  {
    var name := if "NAME" in info then info["NAME"] else "Unknown Linux";
    var parts := if "VERSION_ID" in info then [name, info["VERSION_ID"]] else [name];
    assert |parts| == 2 ==> JoinWith(parts, " ") == parts[0] + " " + JoinWith(parts[1..], " ") && parts[1..] == [parts[1]];
    JoinWith(parts, " ")
  }

  /** Why the Slurm label fails: the output has fewer than two words. */
  datatype LabelError = MissingVersion

  /** `"/ Slurm " + stdout.split()[1]`. */
  function SlurmLabel(stdout: string): (r: Result<string, LabelError>)
    ensures r.Err? <==> |Words(stdout)| < 2
    ensures r.Ok? ==> r.value == "/ Slurm " + Words(stdout)[1]
  {
    var ws := Words(stdout);
    if |ws| < 2 then Err(MissingVersion) else Ok("/ Slurm " + ws[1])
  }

  /** The label of `slurm <version>`, with any whitespace around and between
      the two words (the command ends its output with a newline), names the
      version. */
  lemma {:induction false} SlurmLabelOf(lead: string, gap: string, version: string, trail: string)
    requires AllSpace(lead) && 0 < |gap| && AllSpace(gap) && AllSpace(trail)
    requires 0 < |version| && NoSpace(version)
    ensures SlurmLabel(lead + "slurm" + gap + version + trail) == Ok("/ Slurm " + version)
  {
    var ws, gaps := ["slurm", version], [lead, gap, trail];
    assert NoSpace("slurm");
    assert Layout(ws, gaps) == lead + "slurm" + gap + version + trail by {
      assert ws[1..] == [version] && gaps[1..] == [gap, trail];
      assert Layout([version], [gap, trail]) == gap + (version + trail) by {
        assert [version][1..] == [] && [gap, trail][1..] == [trail];
      }
    }
    WordsLayout(ws, gaps);
  }

  /** Without the file, the system string is the two fallbacks. */
  lemma {:induction false} SystemStringFallback()
    ensures SystemString(OsReleaseInfo(None)) == "Unknown Linux Unknown Version"
  {
  }

  /** Two settings, the name and then the version, give both, joined. */
  lemma {:induction false} SystemStringOfEntries(es: seq<Option<(string, string)>>, name: string, version: string)
    requires es == [Some(("NAME", name)), Some(("VERSION_ID", version))]
    ensures SystemString(Update(map[], es)) == name + " " + version
  {
    UpdateLast(map[], es, 0);
    UpdateLast(map[], es, 1);
  }

  lemma {:induction false} NameLine(line: string, name: string)
    requires |name| == 0 || (name[0] != '"' && name[|name| - 1] != '"')
    requires line == "NAME=\"" + name + "\"\n"
    ensures ParseLine(line) == Some(("NAME", name))
  {
    var key := "NAME";
    assert '=' !in key;
    assert line == key + "=\"" + name + "\"\n";
    ParseLineRoundTrip(line, key, name);
  }

  lemma {:induction false} VersionLine(line: string, version: string)
    requires |version| == 0 || (version[0] != '"' && version[|version| - 1] != '"')
    requires line == "VERSION_ID=\"" + version + "\"\n"
    ensures ParseLine(line) == Some(("VERSION_ID", version))
  {
    var key := "VERSION_ID";
    assert '=' !in key;
    assert line == key + "=\"" + version + "\"\n";
    ParseLineRoundTrip(line, key, version);
  }

  /** The settings of a two-line file are those of its two lines. */
  lemma {:induction false} TwoLines(lines: seq<string>, es: seq<Option<(string, string)>>)
    requires |lines| == 2 && es == [ParseLine(lines[0]), ParseLine(lines[1])]
    ensures OsReleaseInfo(Some(lines)) == Update(map[], es)
  {
    assert ParseLines(lines[1..][1..]) == [];
    assert ParseLines(lines) == es;
  }

  /** A file naming the distribution and then its version, in the quoted
      form of the file, gives both. */
  lemma {:induction false} SystemStringOfFile(name: string, version: string)
    requires |name| == 0 || (name[0] != '"' && name[|name| - 1] != '"')
    requires |version| == 0 || (version[0] != '"' && version[|version| - 1] != '"')
    ensures SystemString(OsReleaseInfo(Some(["NAME=\"" + name + "\"\n", "VERSION_ID=\"" + version + "\"\n"]))) == name + " " + version
  {
    var lines := ["NAME=\"" + name + "\"\n", "VERSION_ID=\"" + version + "\"\n"];
    var es := [Some(("NAME", name)), Some(("VERSION_ID", version))];
    assert OsReleaseInfo(Some(lines)) == Update(map[], es) by {
      NameLine(lines[0], name);
      VersionLine(lines[1], version);
      TwoLines(lines, es);
    }
    SystemStringOfEntries(es, name, version);
  }
}

=== FILE: jobs.dfy ===
/** The job sampler's normalisation of `squeue --json` jobs into display rows
    (`SqueueData.process_job_data`, src/slurmtop/_data.py). Each job becomes
    nine text fields in a fixed order; three of them are derived from nested
    members, the elapsed time from the start time and the current clock, and
    every field is cut to at most 20 characters. */
module Jobs {
  import opened Results
  import opened PyText
  import opened Duration

  /** The projected keys, in display order (`self.keys`). */
  const Keys: seq<string> := ["job_id", "partition", "name", "user_name", "job_state",
                              "time_elapse", "node_number", "nodes", "priority_number"]

  /** The value of a job's `job_state` member: a list of state words (the
      current JSON layout) or a bare string. Indexing `[0]` takes the first
      word of a list and the first character of a string. */
  datatype StateValue = StateList(words: seq<string>) | StateText(text: string)

  /** One decoded job object. `fields` holds the top-level members read
      verbatim, each already rendered by Python's `str`; the four members the
      sampler indexes directly are kept apart, `None` standing for a missing
      member (for the numbered ones, a missing `number` inside it as well). */
  datatype RawJob = RawJob(
    fields: map<string, string>,
    nodeCount: Option<int>,
    priority: Option<int>,
    jobState: Option<StateValue>,
    startTime: Option<int>)

  /** The exceptions the loop body can raise: a `KeyError` on a member it
      indexes, or an `IndexError` on an empty `job_state`. */
  datatype JobError = MissingMember(name: string) | EmptyJobState

  /** One projected field of a display row. */
  datatype Field = Field(key: string, value: string)

  type Row = seq<Field>

  /** The longest field shown. */
  const MaxWidth := 20

  /** A field longer than 20 characters becomes its first 17 and `...`. */
  function Truncate(s: string): (r: string)
    ensures |r| <= MaxWidth
    ensures |s| <= MaxWidth ==> r == s
    ensures |s| > MaxWidth ==> |r| == MaxWidth && r[..17] == s[..17] && r[17..] == "..."
  {
    if |s| > 20 then s[..17] + "..." else s
  }

  /** `job.get(key, "")` on members already rendered as text. */
  function Lookup(m: map<string, string>, key: string): (r: string)
    ensures key !in m ==> r == ""
    ensures key in m ==> r == m[key]
  {
    if key in m then m[key] else ""
  }

  function Need<T>(v: Option<T>, name: string): (r: Result<T, JobError>)
    ensures r.Ok? <==> v.Some?
    ensures r.Ok? ==> r.value == v.value
    ensures r.Err? ==> r.error == MissingMember(name)
  {
    match v
    case Some(x) => Ok(x)
    case None => Err(MissingMember(name))
  }

  /** `job["job_state"][0]`, rendered as text. */
  function StateLetter(v: StateValue): (r: Result<string, JobError>)
    ensures r.Err? <==> (v.StateList? && |v.words| == 0) || (v.StateText? && |v.text| == 0)
    ensures r.Ok? && v.StateList? ==> r.value == v.words[0]
    ensures r.Ok? && v.StateText? ==> |r.value| == 1 && r.value[0] == v.text[0]
  {
    match v
    case StateList(ws) => if |ws| == 0 then Err(EmptyJobState) else Ok(ws[0])
    case StateText(t) => if |t| == 0 then Err(EmptyJobState) else Ok([t[0]])
  }

  /** The display row of a job whose members, after the loop body's
      assignments, are `view`: each key of `Keys` in order, its value
      looked up with `""` for a missing member and truncated. */
  function Project(view: map<string, string>): (row: Row)
    ensures |row| == |Keys|
    ensures forall i :: 0 <= i < |Keys| ==> row[i].key == Keys[i]
    ensures forall i :: 0 <= i < |Keys| ==> row[i].value == Truncate(Lookup(view, Keys[i]))
  {
    seq(|Keys|, i requires 0 <= i < |Keys| => Field(Keys[i], Truncate(Lookup(view, Keys[i]))))
  }

  /** The loop body for one job. The members are indexed in the order of the
      source lines, so the first missing one names the error. `nowMicros` is
      the reading of the current clock, in microseconds since the epoch. */
  function ProcessJob(job: RawJob, nowMicros: int): (r: Result<Row, JobError>)
    ensures r.Err? <==> job.nodeCount.None? || job.priority.None? || job.jobState.None?
                        || StateLetter(job.jobState.value).Err? || job.startTime.None?
    ensures r.Ok? ==> |r.value| == |Keys|
                      && forall i :: 0 <= i < |Keys| ==> r.value[i].key == Keys[i] && |r.value[i].value| <= MaxWidth
  {
    var nodes :- Need(job.nodeCount, "node_count");
    var prio :- Need(job.priority, "priority");
    var state :- Need(job.jobState, "job_state");
    var letter :- StateLetter(state);
    var start :- Need(job.startTime, "start_time");
    Ok(Project(Assign(job.fields, IntToDecimal(nodes), IntToDecimal(prio), letter, TimeElapse(start, nowMicros))))
  }

  /** The loop body's four assignments into the job's members. */
  function Assign(fields: map<string, string>, nodes: string, prio: string, letter: string, elapsed: string)
    : (view: map<string, string>)
    ensures Lookup(view, Keys[4]) == letter && Lookup(view, Keys[5]) == elapsed
    ensures Lookup(view, Keys[6]) == nodes && Lookup(view, Keys[8]) == prio
    ensures forall i :: i in {0, 1, 2, 3, 7} ==> Lookup(view, Keys[i]) == Lookup(fields, Keys[i])
  {
    var view := fields["node_number" := nodes]["priority_number" := prio]["job_state" := letter]["time_elapse" := elapsed];
    assert forall i :: i in {0, 1, 2, 3, 7} ==>
        (Keys[i] != "node_number" && Keys[i] != "priority_number" && Keys[i] != "job_state" && Keys[i] != "time_elapse") by {
      assert Keys[0][0] == 'j' && |Keys[0]| == 6;
      assert Keys[1][0] == 'p' && |Keys[1]| == 9;
      assert Keys[2][0] == 'n' && |Keys[2]| == 4;
      assert Keys[3][0] == 'u';
      assert Keys[7][0] == 'n' && |Keys[7]| == 5;
    }
    view
  }

  /** The loop body applied to every job, in order. */
  function Steps(jobs: seq<RawJob>, nowMicros: int): (rs: seq<Result<Row, JobError>>)
    ensures |rs| == |jobs| && forall i :: 0 <= i < |jobs| ==> rs[i] == ProcessJob(jobs[i], nowMicros)
  {
    seq(|jobs|, i requires 0 <= i < |jobs| => ProcessJob(jobs[i], nowMicros))
  }

  /** Every job is processed before the prefix is taken, so a failing job
      anywhere in the list raises, even beyond `max_jobs`. */
  function ProcessAll(jobs: seq<RawJob>, nowMicros: int): (r: Result<seq<Row>, JobError>)
    ensures r.Err? <==> exists i :: 0 <= i < |jobs| && ProcessJob(jobs[i], nowMicros).Err?
    ensures r.Ok? ==> |r.value| == |jobs|
    ensures r.Ok? ==> forall i :: 0 <= i < |jobs| ==> ProcessJob(jobs[i], nowMicros) == Ok(r.value[i])
  {
    Collect(Steps(jobs, nowMicros))
  }

  /** `process_job_data(jobs, max_jobs)`: all rows for `None`, else `rows[:max_jobs]`. */
  function ProcessJobData(jobs: seq<RawJob>, nowMicros: int, maxJobs: Option<int>): (r: Result<seq<Row>, JobError>)
    ensures r.Err? <==> ProcessAll(jobs, nowMicros).Err?
    ensures r.Ok? && maxJobs.None? ==> |r.value| == |jobs|
    ensures r.Ok? && maxJobs.Some? ==> |r.value| == |SlicePrefix(jobs, maxJobs.value)|
    ensures r.Ok? ==> r.value == ProcessAll(jobs, nowMicros).value[..|r.value|]
  {
    var rows :- ProcessAll(jobs, nowMicros);
    Ok(if maxJobs.None? then rows else SlicePrefix(rows, maxJobs.value))
  }

  // ===========================================================================
  // Properties
  // ===========================================================================

  /** The error raised is the one of the first failing job. */
  lemma {:induction false} FirstFailingJob(jobs: seq<RawJob>, nowMicros: int)
    requires ProcessAll(jobs, nowMicros).Err?
    ensures exists i :: 0 <= i < |jobs| && ProcessJob(jobs[i], nowMicros) == Err(ProcessAll(jobs, nowMicros).error)
                        && forall j :: 0 <= j < i ==> ProcessJob(jobs[j], nowMicros).Ok?
  {
    var rs := Steps(jobs, nowMicros);
    var k :| 0 <= k < |rs| && rs[k] == Err(Collect(rs).error) && forall j :: 0 <= j < k ==> rs[j].Ok?;
    assert ProcessJob(jobs[k], nowMicros) == Err(ProcessAll(jobs, nowMicros).error);
  }

  /** Truncation keeps the first 17 characters and is idempotent. */
  lemma {:induction false} TruncateIdempotent(s: string)
    ensures Truncate(Truncate(s)) == Truncate(s)
    ensures Truncate(s)[..if |s| < 17 then |s| else 17] == s[..if |s| < 17 then |s| else 17]
  {
  }

  /** The five members copied verbatim are truncated, a missing one gives `""`. */
  lemma {:induction false} CopiedFields(job: RawJob, nowMicros: int, i: nat)
    requires ProcessJob(job, nowMicros).Ok?
    requires i in {0, 1, 2, 3, 7}
    ensures ProcessJob(job, nowMicros).value[i].value == Truncate(Lookup(job.fields, Keys[i]))
    ensures Keys[i] !in job.fields ==> ProcessJob(job, nowMicros).value[i].value == ""
  {
    assert Keys[i] !in job.fields ==> Lookup(job.fields, Keys[i]) == "";
  }

  /** The derived fields: the first state word or letter, the node count and
      priority as decimal text, and the elapsed-time rendering. */
  lemma {:induction false} DerivedFields(job: RawJob, nowMicros: int)
    requires ProcessJob(job, nowMicros).Ok?
    ensures var row := ProcessJob(job, nowMicros).value;
            && row[4].value == Truncate(StateLetter(job.jobState.value).value)
            && row[5].value == Truncate(TimeElapse(job.startTime.value, nowMicros))
            && row[6].value == Truncate(IntToDecimal(job.nodeCount.value))
            && row[8].value == Truncate(IntToDecimal(job.priority.value))
  {
  }

  /** The elapsed-time field of a job that has not started, or that starts
      after the clock reading, is empty. */
  lemma {:induction false} ElapsedGuard(job: RawJob, nowMicros: int)
    requires ProcessJob(job, nowMicros).Ok?
    requires job.startTime.value <= 0 || nowMicros < job.startTime.value * 1000000
    ensures ProcessJob(job, nowMicros).value[5].value == ""
  {
    DerivedFields(job, nowMicros);
  }

  /** The displayed elapsed time reads back, through the sort key of the
      `time_elapse` column, as the whole seconds elapsed (0 when the field is
      empty), for any job running for fewer than 100000 days. */
  lemma {:induction false} ElapsedFieldRoundTrip(job: RawJob, nowMicros: int)
    requires ProcessJob(job, nowMicros).Ok?
    requires nowMicros < (job.startTime.value + 8640000000) * 1000000
    ensures var start := job.startTime.value;
            DatetimeToSeconds(ProcessJob(job, nowMicros).value[5].value)
            == Ok(if start <= 0 || nowMicros < start * 1000000 then 0 else (nowMicros - start * 1000000) / 1000000)
  {
    DerivedFields(job, nowMicros);
    ElapsedTextRoundTrip(job.startTime.value, nowMicros);
  }

  /** The truncated elapsed-time text reads back as the whole seconds elapsed. */
  lemma {:induction false} ElapsedTextRoundTrip(start: int, nowMicros: int)
    requires nowMicros < (start + 8640000000) * 1000000
    ensures DatetimeToSeconds(Truncate(TimeElapse(start, nowMicros)))
            == Ok(if start <= 0 || nowMicros < start * 1000000 then 0 else (nowMicros - start * 1000000) / 1000000)
  {
    var text := TimeElapse(start, nowMicros);
    assert |text| <= MaxWidth;
    assert Truncate(text) == text;
    TimeElapseRoundTrip(start, nowMicros);
  }

  /** The node count reads back through the sort key of the `node_number`
      column whenever its rendering fits the field. */
  lemma {:induction false} NodeNumberRoundTrip(job: RawJob, nowMicros: int)
    requires ProcessJob(job, nowMicros).Ok?
    requires 0 <= job.nodeCount.value < 100000000000000000000
    ensures ParseInt(ProcessJob(job, nowMicros).value[6].value) == Some(job.nodeCount.value)
  {
    var n := job.nodeCount.value;
    assert |IntToDecimal(n)| <= 20 by {
      Pow10Twenty();
      NatToDecimalLength(n, 20);
    }
    DerivedFields(job, nowMicros);
    IntToDecimalRoundTrip(n);
  }

  /** `max_jobs` keeps a prefix of the rows, in input order. */
  lemma {:induction false} MaxJobsPrefix(jobs: seq<RawJob>, nowMicros: int, n: int)
    requires ProcessJobData(jobs, nowMicros, None).Ok?
    ensures ProcessJobData(jobs, nowMicros, Some(n)).Ok?
    ensures ProcessJobData(jobs, nowMicros, Some(n)).value
         == SlicePrefix(ProcessJobData(jobs, nowMicros, None).value, n)
  {
  }
}

=== FILE: partitions.dfy ===
/** The partition summary of `sinfo -sh`: each output line is split into
    whitespace tokens, and its fourth token `allocated/idle/other/total`
    is read as four node counts (src/slurmtop/_data.py, src/slurmtop/_sinfo.py).
    The counts are drawn as a load bar whose three segments share a fixed
    width (src/slurmtop/_sinfo.py, src/slurmtop/_sinfo_widget.py). */
module Partitions {
  import opened Results
  import opened PyText

  /** A usage ratio held exactly as a fraction; the source holds it as a float
      rounded to two decimals. */
  datatype Ratio = Ratio(num: nat, den: nat)

  /** A processed partition record `[name, alloc, idle, other, ratio]`. */
  datatype Partition = Partition(name: string, alloc: nat, idle: nat, other: nat, usage: Ratio)

  /** The exceptions of the parsing: a missing token (`IndexError`), a part of
      the quadruple that is not a number, a quadruple of another arity
      (`ValueError` of the unpacking) and a zero total (`ZeroDivisionError`). */
  datatype PartitionError = MissingToken(index: nat) | NotANumber(text: string) | WrongArity(count: nat) | ZeroTotal

  // ===========================================================================
  // Parsing
  // ===========================================================================

  /** `get_partitions_list(n)` over the lines of the command's output: each
      line's whitespace tokens, the first `n` lines. */
  function PartitionsList(lines: seq<string>, n: int): (r: seq<seq<string>>)
    ensures |r| == |SlicePrefix(lines, n)|
    ensures forall i :: 0 <= i < |r| ==> r[i] == Words(lines[i])
  {
    var all := seq(|lines|, i requires 0 <= i < |lines| => Words(lines[i]));
    SlicePrefix(all, n)
  }

  /** A decimal literal as Python's `eval` reads it, without underscores or a
      sign: digits only, and no leading zero unless every digit is zero. */
  predicate IsNaturalLiteral(s: string) {
    0 < |s| && AllDigits(s) && (s[0] == '0' ==> forall i :: 0 <= i < |s| ==> s[i] == '0')
  }

  predicate AllNaturalLiterals(parts: seq<string>) {
    forall i :: 0 <= i < |parts| ==> IsNaturalLiteral(parts[i])
  }

  /** One part of the quadruple, read as a natural number. An accepted part
      is `str` of its value, or a run of zeros for 0. */
  function ParseCount(s: string): (r: Result<nat, PartitionError>)
    ensures r.Ok? <==> IsNaturalLiteral(s)
    ensures r.Ok? ==> r.value == DecimalValue(s)
    ensures r.Ok? ==> s == NatToDecimal(r.value) || (r.value == 0 && s[0] == '0')
    ensures r.Err? ==> r.error == NotANumber(s)
  {
    if IsNaturalLiteral(s) then
      LiteralIsCanonical(s);
      Ok(DecimalValue(s))
    else Err(NotANumber(s))
  }

  /** A natural literal is the decimal rendering of its value, unless it is
      made of zeros only. */
  lemma {:induction false} LiteralIsCanonical(s: string)
    requires IsNaturalLiteral(s)
    ensures s == NatToDecimal(DecimalValue(s)) || (DecimalValue(s) == 0 && s[0] == '0')
  {
    if s[0] == '0' {
      ZerosValue(s);
    } else {
      CanonicalDecimal(s);
    }
  }

  /** A run of zeros has the value 0. */
  lemma {:induction false} ZerosValue(s: string)
    requires forall i :: 0 <= i < |s| ==> s[i] == '0'
    ensures AllDigits(s) && DecimalValue(s) == 0
  {
    if |s| > 0 {
      ZerosValue(s[..|s| - 1]);
    }
  }

  /** A digit string without a leading zero is the decimal rendering of its value. */
  lemma {:induction false} CanonicalDecimal(s: string)
    requires 0 < |s| && AllDigits(s) && s[0] != '0'
    ensures NatToDecimal(DecimalValue(s)) == s
    decreases |s|
  {
    var v := DecimalValue(s);
    if |s| == 1 {
      assert v == DigitValue(s[0]) by {
        assert s[..0] == [];
      }
      assert [DigitChar(v)] == s;
    } else {
      var p := s[..|s| - 1];
      CanonicalDecimal(p);
      var w := DecimalValue(p);
      assert w != 0;
      assert v == 10 * w + DigitValue(s[|s| - 1]);
      assert v / 10 == w && v % 10 == DigitValue(s[|s| - 1]);
      assert NatToDecimal(v) == NatToDecimal(w) + [DigitChar(v % 10)];
      assert p + [s[|s| - 1]] == s;
    }
  }

  /** The list comprehension over the parts: the first part that is not a
      number raises before the arity is looked at. */
  function ParseCounts(parts: seq<string>): (r: Result<seq<nat>, PartitionError>)
    ensures r.Ok? <==> AllNaturalLiterals(parts)
    ensures r.Ok? ==> |r.value| == |parts| && forall i :: 0 <= i < |parts| ==> r.value[i] == DecimalValue(parts[i])
    ensures r.Err? ==> exists i :: 0 <= i < |parts| && !IsNaturalLiteral(parts[i]) && r.error == NotANumber(parts[i])
  {
    if |parts| == 0 then Ok([])
    else
      var first :- ParseCount(parts[0]);
      var rest :- ParseCounts(parts[1..]);
      assert forall i :: 1 <= i < |parts| ==> parts[1..][i - 1] == parts[i];
      Ok([first] + rest)
  }

  /** `alloc, idle, other, total = [eval(i) for i in token.split("/")]`. */
  function ParseQuadruple(token: string): (r: Result<(nat, nat, nat, nat), PartitionError>)
    ensures r.Ok? <==> Count(token, '/') == 3 && AllNaturalLiterals(Split(token, '/'))
    ensures r.Ok? ==> var parts := Split(token, '/');
                      && |parts| == 4 && AllNaturalLiterals(parts)
                      && r.value == (DecimalValue(parts[0]), DecimalValue(parts[1]), DecimalValue(parts[2]), DecimalValue(parts[3]))
  {
    var parts := Split(token, '/');
    var counts :- ParseCounts(parts);
    if |counts| != 4 then Err(WrongArity(|counts|))
    else Ok((counts[0], counts[1], counts[2], counts[3]))
  }

  /** What both readers of a line take from it: the first token and the
      four counts of the fourth, the division by the total raising on zero. */
  datatype LineCounts = LineCounts(name: string, alloc: nat, idle: nat, other: nat, total: nat)

  function ReadLine(tokens: seq<string>): (r: Result<LineCounts, PartitionError>)
    ensures r.Ok? ==> 4 <= |tokens| && r.value.name == tokens[0] && 0 < r.value.total
    ensures r.Ok? ==> var q := ParseQuadruple(tokens[3]);
                      && q.Ok? && 0 < q.value.3
                      && (r.value.alloc, r.value.idle, r.value.other, r.value.total) == q.value
    ensures r.Err? <==> |tokens| < 4 || ParseQuadruple(tokens[3]).Err? || ParseQuadruple(tokens[3]).value.3 == 0
    ensures |tokens| < 4 ==> r.Err? && r.error == MissingToken(if |tokens| == 0 then 0 else 3)
  {
    if |tokens| == 0 then Err(MissingToken(0))
    else if |tokens| < 4 then Err(MissingToken(3))
    else
      var q :- ParseQuadruple(tokens[3]);
      if q.3 == 0 then Err(ZeroTotal)
      else Ok(LineCounts(tokens[0], q.0, q.1, q.2, q.3))
  }

  /** `SinfoData.process_data` for one line's tokens: the usage is
      `(alloc + other) / total * 100`, a percentage of the reported total that
      is at most 100 exactly when allocated and other nodes do not exceed it. */
  function ProcessPartition(tokens: seq<string>): (r: Result<Partition, PartitionError>)
    ensures r.Ok? <==> ReadLine(tokens).Ok?
    ensures r.Ok? ==> var c := ReadLine(tokens).value;
                      r.value == Partition(c.name, c.alloc, c.idle, c.other, Ratio((c.alloc + c.other) * 100, c.total))
    ensures r.Ok? ==> 0 < r.value.usage.den
                      && (r.value.usage.num <= 100 * r.value.usage.den
                          <==> r.value.alloc + r.value.other <= ReadLine(tokens).value.total)
  {
    var c :- ReadLine(tokens);
    Ok(Partition(c.name, c.alloc, c.idle, c.other, Ratio((c.alloc + c.other) * 100, c.total)))
  }

  /** `SinfoData.process_data`: every line in order, the first failure raising. */
  function ProcessData(lines: seq<seq<string>>): (r: Result<seq<Partition>, PartitionError>)
    ensures r.Err? <==> exists i :: 0 <= i < |lines| && ProcessPartition(lines[i]).Err?
    ensures r.Ok? ==> |r.value| == |lines| && forall i :: 0 <= i < |lines| ==> ProcessPartition(lines[i]) == Ok(r.value[i])
  {
    if |lines| == 0 then Ok([])
    else
      var first :- ProcessPartition(lines[0]);
      var rest := ProcessData(lines[1..]);
      assert forall i :: 1 <= i < |lines| ==> lines[1..][i - 1] == lines[i];
      if rest.Err? then Err(rest.error)
      else Ok([first] + rest.value)
  }

  // ===========================================================================
  // Load-bar arithmetic
  // ===========================================================================

  /** The three segment widths of a bar of `width` cells:
      `int(x / total * width)` for the first two (on exact rationals, so a
      floor), and the remainder for the third, which is negative when
      `alloc + idle` exceeds `total`. */
  datatype Segments = Segments(alloc: int, idle: int, other: int)

  function SegmentWidths(alloc: nat, idle: nat, total: nat, width: nat): (s: Segments)
    requires total > 0
    ensures s.alloc + s.idle + s.other == width
    ensures 0 <= s.alloc && s.alloc * total <= alloc * width < (s.alloc + 1) * total
    ensures 0 <= s.idle && s.idle * total <= idle * width < (s.idle + 1) * total
  {
    var a := alloc * width / total;
    var i := idle * width / total;
    Segments(a, i, width - a - i)
  }

  /** A bar that reads back as exactly `width` cells. */
  predicate FillsCells(bar: string, width: int) {
    var cells := ReadBar(bar);
    cells.Some? && cells.value.0 + cells.value.1 + cells.value.2 == width
  }

  /** The bar: the opening, one cell per segment unit, the ratio text padded
      to six characters with its `%`, and the closing. `ratioText` is Python's
      rendering of the rounded float. */
  function Bar(seg: Segments, ratioText: string): string {
    "[white][" + (Repeat("[red]|", seg.alloc) + (Repeat("[green]|", seg.idle)
    + (Repeat("[orange1].", seg.other) + (RJust(ratioText + "%", 6) + "[white]]"))))
  }

  /** The row of `PartitionsList.collect_data` (bar width 30, the reported
      total): it exists exactly when the line reads, and holds the cells of
      the line's counts. */
  function CollectRow(tokens: seq<string>, show: Ratio -> string): (r: Result<seq<string>, PartitionError>)
    ensures r.Ok? <==> ReadLine(tokens).Ok?
    ensures r.Ok? ==> r.value == CollectCells(ReadLine(tokens).value, show)
  {
    var c :- ReadLine(tokens);
    Ok(CollectCells(c, show))
  }

  /** The cells of a sampler row: name cut to 8 characters, the bar, then the
      four counts as text, which `int` reads back as the counts. The bar draws
      30 cells when `alloc + idle` does not exceed the total. */
  function CollectCells(c: LineCounts, show: Ratio -> string): (r: seq<string>)
    requires 0 < c.total
    ensures && |r| == 6 && r[0] == SlicePrefix(c.name, 8) && r[1] == CollectBar(c, show)
            && r[2..] == CountCells(c.alloc, c.idle, c.other, c.total)
    ensures && IsDigitsOf(r[2], c.alloc) && IsDigitsOf(r[3], c.idle)
            && IsDigitsOf(r[4], c.other) && IsDigitsOf(r[5], c.total)
    ensures c.alloc + c.idle <= c.total && (show(Ratio((c.alloc + c.other) * 100, c.total)) + "%")[0] != '['
            ==> FillsCells(r[1], 30)
  {
    CollectBarFilled(c, show);
    [SlicePrefix(c.name, 8), CollectBar(c, show)] + CountCells(c.alloc, c.idle, c.other, c.total)
  }

  /** A count cell: plain digits whose decimal value is the count, which
      Python's `int` therefore reads back as the count (see `ParseInt`). */
  predicate IsDigitsOf(cell: string, n: nat) {
    0 < |cell| && AllDigits(cell) && DecimalValue(cell) == n
  }

  /** The four count cells of a row: `str` of each count, which `int` reads
      back as that count. */
  function CountCells(a: nat, i: nat, o: nat, t: nat): (r: seq<string>)
    ensures r == [NatToDecimal(a), NatToDecimal(i), NatToDecimal(o), NatToDecimal(t)]
    ensures IsDigitsOf(r[0], a) && IsDigitsOf(r[1], i) && IsDigitsOf(r[2], o) && IsDigitsOf(r[3], t)
  {
    [NatToDecimal(a), NatToDecimal(i), NatToDecimal(o), NatToDecimal(t)]
  }

  /** The sampler's bar fills its 30 cells when the counts allow it. */
  lemma {:induction false} CollectBarFilled(c: LineCounts, show: Ratio -> string)
    requires 0 < c.total
    ensures c.alloc + c.idle <= c.total && (show(Ratio((c.alloc + c.other) * 100, c.total)) + "%")[0] != '['
            ==> FillsCells(CollectBar(c, show), 30)
  {
    var text := show(Ratio((c.alloc + c.other) * 100, c.total));
    if c.alloc + c.idle <= c.total && (text + "%")[0] != '[' {
      var seg := SegmentWidths(c.alloc, c.idle, c.total, 30);
      assert CollectBar(c, show) == Bar(seg, text);
      CollectBarCells(c.alloc, c.idle, c.total, text);
    }
  }

  /** The sampler's bar: 30 cells shared in proportion to the reported total. */
  function CollectBar(c: LineCounts, show: Ratio -> string): string
    requires 0 < c.total
  {
    Bar(SegmentWidths(c.alloc, c.idle, c.total, 30), show(Ratio((c.alloc + c.other) * 100, c.total)))
  }

  /** The row of `PartitionsUtilizationViewer.refresh_viewer` (bar width 25):
      the total is recomputed as the sum of the three counts, so the bar always
      fills its 25 cells, and the count cells read back through `int`. */
  function ViewerRow(p: Partition, show: Ratio -> string): (r: Result<seq<string>, PartitionError>)
    ensures r.Err? <==> p.alloc + p.idle + p.other == 0
    ensures r.Ok? ==> |r.value| == 6 && r.value[0] == p.name
    ensures r.Ok? ==> r.value[1] == Bar(SegmentWidths(p.alloc, p.idle, p.alloc + p.idle + p.other, 25), show(p.usage))
    ensures r.Ok? ==> r.value[2..] == CountCells(p.alloc, p.idle, p.other, p.alloc + p.idle + p.other)
    ensures r.Ok? ==> && IsDigitsOf(r.value[2], p.alloc) && IsDigitsOf(r.value[3], p.idle)
                      && IsDigitsOf(r.value[4], p.other) && IsDigitsOf(r.value[5], p.alloc + p.idle + p.other)
    ensures r.Ok? && (show(p.usage) + "%")[0] != '[' ==> FillsCells(r.value[1], 25)
  {
    var total := p.alloc + p.idle + p.other;
    if total == 0 then Err(ZeroTotal)
    else
      var seg := SegmentWidths(p.alloc, p.idle, total, 25);
      ViewerSegments(p);
      FilledBar(seg, show(p.usage), 25);
      Ok([p.name, Bar(seg, show(p.usage))] + CountCells(p.alloc, p.idle, p.other, total))
  }

  // ===========================================================================
  // Reading a bar back
  // ===========================================================================

  /** How many copies of `cell` start `s`, and what follows them. */
  function LeadingCells(s: string, cell: string): (r: (nat, string))
    requires 0 < |cell|
    ensures |r.1| <= |s|
    decreases |s|
  {
    if cell <= s then
      var n := LeadingCells(s[|cell|..], cell);
      (n.0 + 1, n.1)
    else (0, s)
  }

  /** The reader of a bar: the three segment counts and the padded label. */
  function ReadBar(s: string): Option<(nat, nat, nat, string)> {
    var r0 :- TakeLiteral(s, "[white][");
    var (a, r1) := LeadingCells(r0, "[red]|");
    var (i, r2) := LeadingCells(r1, "[green]|");
    var (o, r3) := LeadingCells(r2, "[orange1].");
    if 8 <= |r3| && r3[|r3| - 8..] == "[white]]" then Some((a, i, o, r3[..|r3| - 8])) else None
  }

  // ===========================================================================
  // Properties
  // ===========================================================================

  /** `eval` of `str(n)` is `n`. */
  lemma {:induction false} ParseCountRoundTrip(n: nat)
    ensures ParseCount(NatToDecimal(n)) == Ok(n)
  {
    var d := NatToDecimal(n);
    if d[0] == '0' {
      assert n == 0;
      assert d == [DigitChar(0)];
    }
  }

  /** The quadruple written `a/i/o/t` reads back as its four counts. */
  lemma {:induction false} QuadrupleRoundTrip(a: nat, i: nat, o: nat, t: nat)
    ensures ParseQuadruple(NatToDecimal(a) + "/" + NatToDecimal(i) + "/" + NatToDecimal(o) + "/" + NatToDecimal(t))
         == Ok((a, i, o, t))
  {
    var da, di, dO, dt := NatToDecimal(a), NatToDecimal(i), NatToDecimal(o), NatToDecimal(t);
    var token := da + "/" + di + "/" + dO + "/" + dt;
    SplitFour(da, di, dO, dt);
    assert ParseCounts([da, di, dO, dt]) == Ok([a, i, o, t]) by {
      CountsRoundTrip(a, i, o, t);
    }
  }

  /** A line whose fourth token is `a/i/o/t` in decimal, with a non-zero
      total, is the partition of those counts with usage `(a + o) * 100 / t`. */
  lemma {:induction false} ProcessPartitionOfLine(tokens: seq<string>, a: nat, i: nat, o: nat, t: nat)
    requires 4 <= |tokens| && 0 < t
    requires tokens[3] == NatToDecimal(a) + "/" + NatToDecimal(i) + "/" + NatToDecimal(o) + "/" + NatToDecimal(t)
    ensures ProcessPartition(tokens) == Ok(Partition(tokens[0], a, i, o, Ratio((a + o) * 100, t)))
  {
    QuadrupleRoundTrip(a, i, o, t);
  }

  lemma {:induction false} CountsRoundTrip(a: nat, i: nat, o: nat, t: nat)
    ensures ParseCounts([NatToDecimal(a), NatToDecimal(i), NatToDecimal(o), NatToDecimal(t)]) == Ok([a, i, o, t])
  {
    var ds := [NatToDecimal(a), NatToDecimal(i), NatToDecimal(o), NatToDecimal(t)];
    ParseCountRoundTrip(a);
    ParseCountRoundTrip(i);
    ParseCountRoundTrip(o);
    ParseCountRoundTrip(t);
    assert AllNaturalLiterals(ds);
    var r := ParseCounts(ds);
    assert r.Ok? && r.value == [a, i, o, t];
  }

  /** Four digit strings joined with `/` split back into them. */
  lemma {:induction false} SplitFour(a: string, b: string, c: string, d: string)
    requires AllDigits(a) && AllDigits(b) && AllDigits(c) && AllDigits(d)
    ensures Split(a + "/" + b + "/" + c + "/" + d, '/') == [a, b, c, d]
  {
    JoinFour(a, b, c, d);
    var cd := c + ['/'] + d;
    var bcd := b + ['/'] + cd;
    DigitsLack(a, '/');
    DigitsLack(b, '/');
    DigitsLack(c, '/');
    DigitsLack(d, '/');
    SplitWithoutSeparator(d, '/');
    SplitBefore(c, '/', d, [d]);
    assert [c] + [d] == [c, d];
    SplitBefore(b, '/', cd, [c, d]);
    assert [b] + [c, d] == [b, c, d];
    SplitBefore(a, '/', bcd, [b, c, d]);
    assert [a] + [b, c, d] == [a, b, c, d];
  }

  /** A separator-free piece followed by the separator becomes the first part. */
  lemma {:induction false} SplitBefore(a: string, sep: char, b: string, parts: seq<string>)
    requires sep !in a && Split(b, sep) == parts
    ensures Split(a + [sep] + b, sep) == [a] + parts
  {
    SplitConcat(a, sep, b);
  }

  lemma {:induction false} JoinFour(a: string, b: string, c: string, d: string)
    ensures a + "/" + b + "/" + c + "/" + d == a + ['/'] + (b + ['/'] + (c + ['/'] + d))
  {
  }

  /** A quadruple of any other arity than four is rejected once its parts are numbers. */
  lemma {:induction false} QuadrupleArity(token: string)
    requires forall p :: p in Split(token, '/') ==> IsNaturalLiteral(p)
    requires Count(token, '/') != 3
    ensures ParseQuadruple(token) == Err(WrongArity(Count(token, '/') + 1))
  {
  }

  /** When `alloc + idle` does not exceed the total, every segment is a
      width between 0 and the bar width. */
  lemma {:induction false} SegmentsWithinWidth(alloc: nat, idle: nat, total: nat, width: nat)
    requires total > 0 && alloc + idle <= total
    ensures var s := SegmentWidths(alloc, idle, total, width);
            0 <= s.alloc <= width && 0 <= s.idle <= width && 0 <= s.other <= width
  {
    var s := SegmentWidths(alloc, idle, total, width);
    FloorSum(alloc * width, idle * width, total, width);
  }

  /** `floor(x/t) + floor(y/t) <= w` when `x + y <= w * t`. */
  lemma {:induction false} FloorSum(x: nat, y: nat, t: nat, w: nat)
    requires t > 0 && x + y <= w * t
    ensures x / t + y / t <= w
  {
    var q1, q2 := x / t, y / t;
    assert q1 * t <= x && q2 * t <= y;
    assert (q1 + q2) * t <= w * t;
  }

  /** In the viewer the total is the sum of the counts, so the segments always
      lie within the 25 cells and fill them exactly. */
  lemma {:induction false} ViewerSegments(p: Partition)
    requires p.alloc + p.idle + p.other > 0
    ensures var s := SegmentWidths(p.alloc, p.idle, p.alloc + p.idle + p.other, 25);
            0 <= s.alloc <= 25 && 0 <= s.idle <= 25 && 0 <= s.other <= 25
            && s.alloc + s.idle + s.other == 25
  {
    SegmentsWithinWidth(p.alloc, p.idle, p.alloc + p.idle + p.other, 25);
  }

  /** Copies of a cell followed by text that does not start with it are counted exactly. */
  lemma {:induction false} LeadingCellsOf(cell: string, n: nat, rest: string)
    requires 0 < |cell| && !(cell <= rest)
    ensures LeadingCells(Repeat(cell, n) + rest, cell) == (n, rest)
  {
    if n > 0 {
      var s := Repeat(cell, n) + rest;
      assert s == cell + (Repeat(cell, n - 1) + rest);
      assert s[|cell|..] == Repeat(cell, n - 1) + rest;
      LeadingCellsOf(cell, n - 1, rest);
    } else {
      assert Repeat(cell, n) + rest == rest;
    }
  }

  /** Two texts that differ at a position inside both are not prefixes of each other. */
  lemma {:induction false} DifferAt(cell: string, rest: string, k: nat)
    requires k < |cell| && k < |rest| && cell[k] != rest[k]
    ensures !(cell <= rest)
  {
  }

  /** The reader recovers the three segment counts (a negative one drawn as
      nothing) and the padded label from any bar whose label does not start
      with `[`. */
  lemma {:induction false} BarRoundTrip(seg: Segments, ratioText: string)
    requires (ratioText + "%")[0] != '['
    ensures ReadBar(Bar(seg, ratioText))
         == Some((Clamp(seg.alloc), Clamp(seg.idle), Clamp(seg.other), RJust(ratioText + "%", 6)))
  {
    var padded := RJust(ratioText + "%", 6);
    assert padded[0] != '[' by {
      if |ratioText + "%"| < 6 {
        assert padded[0] == ' ';
      } else {
        assert padded == ratioText + "%";
      }
    }
    var tail := padded + "[white]]";
    var r2 := Repeat("[orange1].", seg.other) + tail;
    var r1 := Repeat("[green]|", seg.idle) + r2;
    var r0 := Repeat("[red]|", seg.alloc) + r1;
    assert Bar(seg, ratioText) == "[white][" + r0;
    assert TakeLiteral("[white][" + r0, "[white][") == Some(r0);
    RepeatClamp("[red]|", seg.alloc);
    RepeatClamp("[green]|", seg.idle);
    RepeatClamp("[orange1].", seg.other);
    DifferAt("[red]|", tail, 0);
    DifferAt("[green]|", tail, 0);
    CellThenOther("[red]|", "[orange1].", seg.other, tail);
    CellThenOther("[red]|", "[green]|", seg.idle, r2);
    LeadingCellsOf("[red]|", Clamp(seg.alloc), r1);
    CellThenOther("[green]|", "[orange1].", seg.other, tail);
    LeadingCellsOf("[green]|", Clamp(seg.idle), r2);
    DifferAt("[orange1].", tail, 0);
    LeadingCellsOf("[orange1].", Clamp(seg.other), tail);
    assert tail[|tail| - 8..] == "[white]]";
    assert tail[..|tail| - 8] == padded;
  }

  function Clamp(n: int): nat {
    if n < 0 then 0 else n
  }

  lemma {:induction false} RepeatClamp(cell: string, n: int)
    ensures Repeat(cell, n) == Repeat(cell, Clamp(n))
  {
  }

  /** After the cells of one colour comes either a cell of the next colour or
      the text following them, which starts differently from `cell`. */
  lemma {:induction false} CellThenOther(cell: string, next: string, n: int, rest: string)
    requires 1 < |cell| && 1 < |next| && cell[1] != next[1]
    requires !(cell <= rest)
    ensures !(cell <= Repeat(next, n) + rest)
  {
    if n > 0 {
      assert (Repeat(next, n) + rest)[1] == next[1];
      DifferAt(cell, Repeat(next, n) + rest, 1);
    } else {
      assert Repeat(next, n) + rest == rest;
    }
  }

  /** The sampler's bar draws exactly 30 cells when `alloc + idle` does not
      exceed the reported total, whatever the ratio text, provided it does not
      start with `[`. */
  lemma {:induction false} CollectBarCells(alloc: nat, idle: nat, total: nat, text: string)
    requires 0 < total && alloc + idle <= total
    requires (text + "%")[0] != '['
    ensures var cells := ReadBar(Bar(SegmentWidths(alloc, idle, total, 30), text));
            cells.Some? && cells.value.0 + cells.value.1 + cells.value.2 == 30
  {
    SegmentsWithinWidth(alloc, idle, total, 30);
    BarCells(Bar(SegmentWidths(alloc, idle, total, 30), text), SegmentWidths(alloc, idle, total, 30), text, 30);
  }

  /** A bar of non-negative segments filling `width` cells, whose label does
      not start with `[`, reads back as exactly `width` cells. */
  lemma {:induction false} FilledBar(seg: Segments, text: string, width: int)
    ensures && 0 <= seg.alloc && 0 <= seg.idle && 0 <= seg.other
            && seg.alloc + seg.idle + seg.other == width && (text + "%")[0] != '['
            ==> FillsCells(Bar(seg, text), width)
  {
    if 0 <= seg.alloc && 0 <= seg.idle && 0 <= seg.other && seg.alloc + seg.idle + seg.other == width
       && (text + "%")[0] != '[' {
      BarCells(Bar(seg, text), seg, text, width);
    }
  }

  /** A bar of non-negative segments filling `width` cells reads back as
      exactly `width` cells. */
  lemma {:induction false} BarCells(bar: string, seg: Segments, text: string, width: int)
    requires bar == Bar(seg, text) && (text + "%")[0] != '['
    requires 0 <= seg.alloc && 0 <= seg.idle && 0 <= seg.other && seg.alloc + seg.idle + seg.other == width
    ensures var cells := ReadBar(bar);
            cells.Some? && cells.value.0 + cells.value.1 + cells.value.2 == width
  {
    BarRoundTrip(seg, text);
  }
}

=== FILE: pytext.dfy ===
/** The Python built-ins on `str` and `int` that the monitor's parsers lean on,
    written out so that every parser above them has an exact meaning:
    `str.isspace`, `str.split()`, `str.split(sep)`, `str.strip`, `int(str)`,
    `str(int)`, prefix slicing `s[:n]`, `str * n`, `str.rjust` and `str.join`. */
module PyText {
  import opened Results

  // ---------------------------------------------------------------------------
  // Character classes
  // ---------------------------------------------------------------------------

  /** The characters for which Python's `str.isspace()` holds. The same set is
      used by `str.split()`, `str.strip()`, `int()` and the regex class `\s`. */
  predicate IsSpace(c: char) {
    || c in {' ', '\t', '\n', '\r', '\U{000B}', '\U{000C}', '\U{001C}', '\U{001D}', '\U{001E}', '\U{001F}'}
    || c in {'\U{0085}', '\U{00A0}', '\U{1680}', '\U{2028}', '\U{2029}', '\U{202F}', '\U{205F}', '\U{3000}'}
    || '\U{2000}' <= c <= '\U{200A}'
  }

  /** An ASCII decimal digit. */
  predicate IsDigit(c: char) {
    '0' <= c <= '9'
  }

  predicate AllDigits(s: string) {
    forall i :: 0 <= i < |s| ==> IsDigit(s[i])
  }

  predicate NoSpace(s: string) {
    forall i :: 0 <= i < |s| ==> !IsSpace(s[i])
  }

  /** Number of occurrences of `c` in `s` (Python's `s.count(c)` for one character). */
  function Count(s: string, c: char): (n: nat)
    ensures n == 0 <==> c !in s
    ensures n <= |s|
  {
    if |s| == 0 then 0
    else (if s[0] == c then 1 else 0) + Count(s[1..], c)
  }

  // ---------------------------------------------------------------------------
  // Decimal numerals: str(n) and the value of a digit string
  // ---------------------------------------------------------------------------

  function DigitValue(c: char): nat
    requires IsDigit(c)
  {
    c as int - '0' as int
  }

  function DigitChar(d: nat): (c: char)
    requires d < 10
    ensures IsDigit(c) && DigitValue(c) == d
  {
    ('0' as int + d) as char
  }

  /** The value of a string of decimal digits, most significant first. */
  function DecimalValue(s: string): nat
    requires AllDigits(s)
  {
    if |s| == 0 then 0 else 10 * DecimalValue(s[..|s| - 1]) + DigitValue(s[|s| - 1])
  }

  /** Python's `str(n)` for a non-negative `n`. */
  function NatToDecimal(n: nat): (r: string)
    ensures 0 < |r| && AllDigits(r)
    ensures DecimalValue(r) == n
    ensures r[0] == '0' ==> n == 0
  {
    if n < 10 then [DigitChar(n)]
    else
      var p := NatToDecimal(n / 10);
      var r := p + [DigitChar(n % 10)];
      assert r[..|r| - 1] == p;
      r
  }

  function Pow10(k: nat): (r: nat)
    ensures 0 < r
  {
    if k == 0 then 1 else 10 * Pow10(k - 1)
  }

  /** The bound of twenty-digit numbers. */
  lemma {:induction false} Pow10Twenty()
    ensures Pow10(20) == 100000000000000000000
  {
    assert Pow10(1) == 10;
    assert Pow10(2) == 100;
    assert Pow10(3) == 1000;
    assert Pow10(4) == 10000;
    assert Pow10(5) == 100000;
    assert Pow10(6) == 1000000;
    assert Pow10(7) == 10000000;
    assert Pow10(8) == 100000000;
    assert Pow10(9) == 1000000000;
    assert Pow10(10) == 10000000000;
    assert Pow10(11) == 100000000000;
    assert Pow10(12) == 1000000000000;
    assert Pow10(13) == 10000000000000;
    assert Pow10(14) == 100000000000000;
    assert Pow10(15) == 1000000000000000;
    assert Pow10(16) == 10000000000000000;
    assert Pow10(17) == 100000000000000000;
    assert Pow10(18) == 1000000000000000000;
    assert Pow10(19) == 10000000000000000000;
    assert Pow10(20) == 100000000000000000000;
  }

  /** A number below `10^k` has at most `k` digits. */
  lemma {:induction false} NatToDecimalLength(n: nat, k: nat)
    requires 0 < k && n < Pow10(k)
    ensures |NatToDecimal(n)| <= k
  {
    if n >= 10 {
      assert k > 1;
      NatToDecimalLength(n / 10, k - 1);
    }
  }

  /** Python's `str(i)` for any integer. */
  function IntToDecimal(i: int): (r: string)
    ensures 0 < |r|
    ensures i >= 0 ==> r == NatToDecimal(i)
    ensures i < 0 ==> r == "-" + NatToDecimal(-i)
  {
    if i < 0 then "-" + NatToDecimal(-i) else NatToDecimal(i)
  }

  /** `int(str(i)) == i` for every integer. */
  lemma {:induction false} IntToDecimalRoundTrip(i: int)
    ensures ParseInt(IntToDecimal(i)) == Some(i)
  {
    if i < 0 {
      var r := IntToDecimal(i);
      assert r[1..] == NatToDecimal(-i);
      ParseIntNegatedDigits(r);
    }
  }

  // ---------------------------------------------------------------------------
  // Joining and splitting
  // ---------------------------------------------------------------------------

  /** Python's `sep.join(parts)`. */
  function JoinWith(parts: seq<string>, sep: string): string {
    if |parts| == 0 then ""
    else if |parts| == 1 then parts[0]
    else parts[0] + sep + JoinWith(parts[1..], sep)
  }

  /** Python's `s.split(sep)` for a one-character separator: never empty, one
      more piece than there are separators, and joining the pieces back with
      the separator gives `s` again. */
  function Split(s: string, sep: char): (parts: seq<string>)
    ensures |parts| == Count(s, sep) + 1
    ensures forall i :: 0 <= i < |parts| ==> sep !in parts[i]
    ensures JoinWith(parts, [sep]) == s
  {
    if |s| == 0 then [""]
    else
      var rest := Split(s[1..], sep);
      assert s == [s[0]] + s[1..];
      if s[0] == sep then
        assert JoinWith([""] + rest, [sep]) == [sep] + JoinWith(rest, [sep]) by {
          assert ([""] + rest)[1..] == rest;
        }
        [""] + rest
      else
        JoinWithExtendHead(s[0], rest, [sep]);
        [[s[0]] + rest[0]] + rest[1..]
  }

  /** Extending the first piece extends the joined string at the front. */
  lemma {:induction false} JoinWithExtendHead(c: char, parts: seq<string>, sep: string)
    requires 0 < |parts|
    ensures JoinWith([[c] + parts[0]] + parts[1..], sep) == [c] + JoinWith(parts, sep)
  {
    var ext := [[c] + parts[0]] + parts[1..];
    assert ext[1..] == parts[1..];
  }

  /** Length of the longest prefix of `s` whose characters all satisfy `p`. */
  function RunLength(s: string, p: char -> bool): (n: nat)
    ensures n <= |s|
    ensures forall i :: 0 <= i < n ==> p(s[i])
    ensures n == |s| || !p(s[n])
  {
    if |s| == 0 || !p(s[0]) then 0 else 1 + RunLength(s[1..], p)
  }

  predicate IsWordChar(c: char) {
    !IsSpace(c)
  }

  /** Python's `s.split()` with no argument: the maximal runs of
      non-whitespace characters of `s`, in order. */
  function Words(s: string): (ws: seq<string>)
    ensures forall i :: 0 <= i < |ws| ==> 0 < |ws[i]| && NoSpace(ws[i])
    decreases |s|
  {
    if |s| == 0 then []
    else if IsSpace(s[0]) then Words(s[1..])
    else
      var n := RunLength(s, IsWordChar);
      [s[..n]] + Words(s[n..])
  }

  // ---------------------------------------------------------------------------
  // Stripping
  // ---------------------------------------------------------------------------

  /** Drops the leading characters satisfying `drop`. */
  function LStripBy(s: string, drop: char -> bool): (r: string)
    ensures |r| <= |s| && r == s[|s| - |r|..]
    ensures forall i :: 0 <= i < |s| - |r| ==> drop(s[i])
    ensures |r| == 0 || !drop(r[0])
  {
    if 0 < |s| && drop(s[0]) then
      var r := LStripBy(s[1..], drop);
      assert s[1..][|s| - 1 - |r|..] == s[|s| - |r|..];
      r
    else s
  }

  /** Drops the trailing characters satisfying `drop`. */
  function RStripBy(s: string, drop: char -> bool): (r: string)
    ensures |r| <= |s| && r == s[..|r|]
    ensures forall i :: |r| <= i < |s| ==> drop(s[i])
    ensures |r| == 0 || !drop(r[|r| - 1])
  {
    if 0 < |s| && drop(s[|s| - 1]) then RStripBy(s[..|s| - 1], drop) else s
  }

  /** Python's `s.rstrip()`. */
  function RStrip(s: string): string {
    RStripBy(s, IsSpace)
  }

  /** Python's `s.strip()`. */
  function Strip(s: string): string {
    LStripBy(RStripBy(s, IsSpace), IsSpace)
  }

  /** Python's `s.rstrip(c)` for a single character `c`. */
  function RStripChar(s: string, c: char): (r: string)
    ensures |r| <= |s| && r == s[..|r|]
    ensures forall i :: |r| <= i < |s| ==> s[i] == c
    ensures |r| == 0 || r[|r| - 1] != c
  {
    if 0 < |s| && s[|s| - 1] == c then RStripChar(s[..|s| - 1], c) else s
  }

  /** Python's `s.lstrip(c)` for a single character `c`. */
  function LStripChar(s: string, c: char): (r: string)
    ensures |r| <= |s| && r == s[|s| - |r|..]
    ensures forall i :: 0 <= i < |s| - |r| ==> s[i] == c
    ensures |r| == 0 || r[0] != c
  {
    if 0 < |s| && s[0] == c then LStripChar(s[1..], c) else s
  }

  /** Python's `s.strip(c)` for a single character `c`: the middle of `s` left
      once the runs of `c` at both ends are removed. */
  function StripChar(s: string, c: char): (r: string)
    ensures FreeEnds(r, c)
    ensures exists i, j :: StrippedRuns(s, c, i, j) && r == s[i..j]
  {
    var t := RStripChar(s, c);
    var r := LStripChar(t, c);
    StripCharMiddle(s, c, t, r);
    r
  }

  /** Neither end of `r` is `c`. */
  predicate FreeEnds(r: string, c: char) {
    |r| == 0 || (r[0] != c && r[|r| - 1] != c)
  }

  /** `s[i..j]` is what remains of `s` once runs of `c` are cut from both ends. */
  predicate StrippedRuns(s: string, c: char, i: int, j: int) {
    && 0 <= i <= j <= |s|
    && (forall k :: 0 <= k < i ==> s[k] == c)
    && (forall k :: j <= k < |s| ==> s[k] == c)
  }

  /** The runs `StripChar` removes are at the two ends of `s`: `t` is `s`
      without its trailing run, `r` is `t` without its leading run. */
  lemma {:induction false} StripCharMiddle(s: string, c: char, t: string, r: string)
    requires |t| <= |s| && t == s[..|t|] && (|t| == 0 || t[|t| - 1] != c)
    requires forall k :: |t| <= k < |s| ==> s[k] == c
    requires |r| <= |t| && r == t[|t| - |r|..] && (|r| == 0 || r[0] != c)
    requires forall k :: 0 <= k < |t| - |r| ==> t[k] == c
    ensures FreeEnds(r, c)
    ensures StrippedRuns(s, c, |t| - |r|, |t|) && r == s[|t| - |r|..|t|]
  {
    var i := |t| - |r|;
    assert |r| == 0 || r[|r| - 1] != c by {
      if |r| > 0 {
        assert r[|r| - 1] == t[|t| - 1];
      }
    }
    forall k | 0 <= k < i ensures s[k] == c {
      assert s[k] == t[k];
    }
  }

  // ---------------------------------------------------------------------------
  // int(str)
  // ---------------------------------------------------------------------------

  /** Digits with single underscores between them, as Python's `int()` accepts
      ("1_000"): no leading, trailing or doubled underscore. */
  predicate IsDigitGroups(b: string) {
    && 0 < |b|
    && IsDigit(b[0])
    && (|b| == 1 || if b[1] == '_' then IsDigitGroups(b[2..]) else IsDigitGroups(b[1..]))
  }

  lemma {:induction false} DigitGroupsChars(b: string)
    requires IsDigitGroups(b)
    ensures forall i :: 0 <= i < |b| ==> IsDigit(b[i]) || b[i] == '_'
  {
    if |b| > 1 {
      if b[1] == '_' {
        DigitGroupsChars(b[2..]);
        assert forall i :: 2 <= i < |b| ==> b[i] == b[2..][i - 2];
      } else {
        DigitGroupsChars(b[1..]);
        assert forall i :: 1 <= i < |b| ==> b[i] == b[1..][i - 1];
      }
    }
  }

  lemma {:induction false} DigitsAreDigitGroups(b: string)
    requires 0 < |b| && AllDigits(b)
    ensures IsDigitGroups(b)
  {
    if |b| > 1 {
      DigitsAreDigitGroups(b[1..]);
    }
  }

  function DropUnderscores(b: string): (r: string)
    ensures (forall i :: 0 <= i < |b| ==> IsDigit(b[i]) || b[i] == '_') ==> AllDigits(r)
    ensures AllDigits(b) ==> r == b
  {
    if |b| == 0 then ""
    else (if b[0] == '_' then "" else [b[0]]) + DropUnderscores(b[1..])
  }

  /** A character that may occur in a text `int()` accepts. */
  predicate IsIntChar(c: char) {
    IsDigit(c) || IsSpace(c) || c == '+' || c == '-' || c == '_'
  }

  /** Python's `int(s)` on a string: surrounding whitespace is ignored, one
      optional sign, then digit groups. `None` stands for the `ValueError`,
      which any other character in the text raises. */
  function ParseInt(s: string): (r: Option<int>)
    ensures r.Some? ==> forall k :: 0 <= k < |s| ==> IsIntChar(s[k])
    ensures r.Some? && r.value < 0 ==> '-' in s
    ensures 0 < |s| && AllDigits(s) ==> r == Some(DecimalValue(s) as int)
  {
    IntLiteralFacts(s);
    IntLiteral(s)
  }

  /** The reading behind `ParseInt`. */
  function IntLiteral(s: string): Option<int> {
    var t := Strip(s);
    var signed := 0 < |t| && (t[0] == '+' || t[0] == '-');
    var body := if signed then t[1..] else t;
    if IsDigitGroups(body) then
      DigitGroupsChars(body);
      var n := DecimalValue(DropUnderscores(body));
      if signed && t[0] == '-' then Some(0 - n as int) else Some(n as int)
    else None
  }

  /** What `IntLiteral` accepts: only integer characters, a minus sign for a
      negative value, and plain digits as their decimal value. */
  lemma {:induction false} IntLiteralFacts(s: string)
    ensures var r := IntLiteral(s);
            && (r.Some? ==> forall k :: 0 <= k < |s| ==> IsIntChar(s[k]))
            && (r.Some? && r.value < 0 ==> '-' in s)
            && (0 < |s| && AllDigits(s) ==> r == Some(DecimalValue(s) as int))
  {
    PlainDigits(s);
    var t := Strip(s);
    var signed := 0 < |t| && (t[0] == '+' || t[0] == '-');
    var body := if signed then t[1..] else t;
    if IsDigitGroups(body) {
      DigitGroupsChars(body);
      SignedDigitGroups(t, signed, body);
      StrippedChars(s);
      if signed && t[0] == '-' {
        assert t == RStripBy(s, IsSpace)[|RStripBy(s, IsSpace)| - |t|..];
        assert t[0] in s;
      }
    }
  }

  /** A plain digit string is its own stripped text and one digit group. */
  lemma {:induction false} PlainDigits(s: string)
    ensures 0 < |s| && AllDigits(s) ==> Strip(s) == s && IsDigitGroups(s)
  {
    if 0 < |s| && AllDigits(s) {
      DigitIsNotSpace(s[|s| - 1]);
      DigitIsNotSpace(s[0]);
      StripNoop(s);
      DigitsAreDigitGroups(s);
    }
  }

  /** An optional sign followed by digit groups holds only characters `int()` admits. */
  lemma {:induction false} SignedDigitGroups(t: string, signed: bool, body: string)
    requires signed ==> 0 < |t| && (t[0] == '+' || t[0] == '-')
    requires body == if signed then t[1..] else t
    requires IsDigitGroups(body)
    ensures forall k :: 0 <= k < |t| ==> IsIntChar(t[k])
  {
    DigitGroupsChars(body);
    forall k | 0 <= k < |t| ensures IsIntChar(t[k]) {
      if signed && k > 0 {
        assert t[k] == body[k - 1];
      } else if !signed {
        assert t[k] == body[k];
      }
    }
  }

  /** Around the stripped text there is only whitespace. */
  lemma {:induction false} StrippedChars(s: string)
    requires forall k :: 0 <= k < |Strip(s)| ==> IsIntChar(Strip(s)[k])
    ensures forall k :: 0 <= k < |s| ==> IsIntChar(s[k])
  {
    var u := RStripBy(s, IsSpace);
    var t := LStripBy(u, IsSpace);
    var off := |u| - |t|;
    forall k | 0 <= k < |s| ensures IsIntChar(s[k]) {
      if k >= |u| {
        assert IsSpace(s[k]);
      } else {
        assert s[k] == u[k];
        if k < off {
          assert IsSpace(u[k]);
        } else {
          assert t == Strip(s);
          assert u[k] == t[k - off];
          assert IsIntChar(Strip(s)[k - off]);
        }
      }
    }
  }

  // ---------------------------------------------------------------------------
  // Slicing, repetition, padding
  // ---------------------------------------------------------------------------

  /** Python's `s[:n]`: a negative `n` counts from the end. */
  function SlicePrefix<T>(s: seq<T>, n: int): (r: seq<T>)
    ensures |r| <= |s| && r == s[..|r|]
    ensures 0 <= n ==> |r| == if n < |s| then n else |s|
    ensures n < 0 ==> |r| == if |s| + n < 0 then 0 else |s| + n
  {
    var k := if n < 0 then |s| + n else n;
    if k < 0 then [] else if k < |s| then s[..k] else s
  }

  /** A literal at the start of `s` (`s.startswith(lit)`): what follows it. */
  function TakeLiteral(s: string, lit: string): (r: Option<string>)
    ensures r.Some? <==> lit <= s
    ensures r.Some? ==> s == lit + r.value
  {
    if lit <= s then Some(s[|lit|..]) else None
  }

  /** Python's `s * n`: empty when `n <= 0`. */
  function Repeat(s: string, n: int): (r: string)
    ensures |r| == if n <= 0 then 0 else |s| * n
    ensures forall i :: 0 <= i < |r| ==> r[i] in s
    decreases if n <= 0 then 0 else n
  {
    if n <= 0 then "" else s + Repeat(s, n - 1)
  }

  /** Python's `s.rjust(w)`: left-padded with spaces to at least `w` characters. */
  function RJust(s: string, w: nat): (r: string)
    ensures |r| == if |s| < w then w else |s|
    ensures r[|r| - |s|..] == s
    ensures forall i :: 0 <= i < |r| - |s| ==> r[i] == ' '
  {
    if |s| < w then Repeat(" ", w - |s|) + s else s
  }

  // ---------------------------------------------------------------------------
  // Laws of the built-ins
  // ---------------------------------------------------------------------------

  /** A run of `p`-characters followed by a character outside `p` is measured exactly. */
  lemma {:induction false} RunLengthConcat(a: string, t: string, p: char -> bool)
    requires forall i :: 0 <= i < |a| ==> p(a[i])
    requires |t| == 0 || !p(t[0])
    ensures RunLength(a + t, p) == |a|
  {
    if |a| > 0 {
      assert (a + t)[1..] == a[1..] + t;
      RunLengthConcat(a[1..], t, p);
    }
  }

  /** `strip()` leaves a string alone when neither end is whitespace. */
  lemma StripNoop(s: string)
    requires |s| == 0 || (!IsSpace(s[0]) && !IsSpace(s[|s| - 1]))
    ensures Strip(s) == s
  {
  }

  lemma DigitIsNotSpace(c: char)
    requires IsDigit(c)
    ensures !IsSpace(c)
  {
  }

  /** `int()` of a plain digit string is its value. */
  lemma ParseIntDigits(d: string)
    requires 0 < |d| && AllDigits(d)
    ensures ParseInt(d) == Some(DecimalValue(d) as int)
  {
    DigitIsNotSpace(d[|d| - 1]);
    DigitIsNotSpace(d[0]);
    StripNoop(d);
    DigitsAreDigitGroups(d);
    assert DropUnderscores(d) == d;
  }

  /** `int()` of a minus sign followed by a plain digit string is its negated value. */
  lemma ParseIntNegatedDigits(s: string)
    requires 1 < |s| && s[0] == '-' && AllDigits(s[1..])
    ensures ParseInt(s) == Some(0 - DecimalValue(s[1..]))
  {
    var d := s[1..];
    assert Strip(s) == s by {
      DigitIsNotSpace(d[|d| - 1]);
      assert s[|s| - 1] == d[|d| - 1];
      StripNoop(s);
    }
    ParseIntNegative(s);
  }

  /** `int()` of an unpadded minus sign followed by digits. */
  lemma ParseIntNegative(s: string)
    requires Strip(s) == s && 1 < |s| && s[0] == '-' && AllDigits(s[1..])
    ensures ParseInt(s) == Some(0 - DecimalValue(s[1..]))
  {
    DigitsAreDigitGroups(s[1..]);
  }

  /** A digit string contains no other character. */
  lemma {:induction false} DigitsLack(s: string, c: char)
    requires AllDigits(s) && !IsDigit(c)
    ensures c !in s
  {
    forall i | 0 <= i < |s| ensures s[i] != c {
      assert IsDigit(s[i]);
    }
  }

  /** Joining whitespace-free, non-empty words with single spaces and splitting
      the result on whitespace gives the words back. */
  lemma {:induction false} WordsJoinRoundTrip(ws: seq<string>)
    requires forall i :: 0 <= i < |ws| ==> 0 < |ws[i]| && NoSpace(ws[i])
    ensures Words(JoinWith(ws, " ")) == ws
  {
    if |ws| == 1 {
      RunLengthConcat(ws[0], "", IsWordChar);
      assert ws[0] + "" == ws[0];
      assert ws[0][..|ws[0]|] == ws[0];
    } else if |ws| > 1 {
      var w, rest := ws[0], JoinWith(ws[1..], " ");
      var s := w + (" " + rest);
      assert JoinWith(ws, " ") == s;
      RunLengthConcat(w, " " + rest, IsWordChar);
      assert s[..|w|] == w;
      assert s[|w|..] == " " + rest;
      assert (" " + rest)[1..] == rest;
      WordsJoinRoundTrip(ws[1..]);
      assert [w] + ws[1..] == ws;
    }
  }

  predicate AllSpace(s: string) {
    forall i :: 0 <= i < |s| ==> IsSpace(s[i])
  }

  /** The text `gaps[0] + ws[0] + gaps[1] + ... + ws[n-1] + gaps[n]`: words laid
      out between runs of whitespace, as in a column of `squeue` or `sinfo`. */
  function Layout(ws: seq<string>, gaps: seq<string>): string
    requires |gaps| == |ws| + 1
    decreases |ws|
  {
    if |ws| == 0 then gaps[0] else gaps[0] + (ws[0] + Layout(ws[1..], gaps[1..]))
  }

  /** Leading whitespace does not change the words. */
  lemma {:induction false} WordsAfterSpace(g: string, t: string)
    requires AllSpace(g)
    ensures Words(g + t) == Words(t)
    decreases |g|
  {
    if |g| > 0 {
      assert (g + t)[1..] == g[1..] + t;
      WordsAfterSpace(g[1..], t);
    } else {
      assert g + t == t;
    }
  }

  /** A layout that is empty or starts with a non-empty gap starts with whitespace. */
  lemma {:induction false} LayoutStart(ws: seq<string>, gaps: seq<string>)
    requires |gaps| == |ws| + 1 && AllSpace(gaps[0])
    requires 0 < |ws| ==> 0 < |gaps[0]|
    ensures var l := Layout(ws, gaps); |l| == 0 || IsSpace(l[0])
  {
    if 0 < |gaps[0]| {
      assert Layout(ws, gaps)[0] == gaps[0][0];
    }
  }

  /** `split()` recovers the words of any layout whose inner gaps are non-empty
      whitespace and whose outer gaps are whitespace, possibly empty. */
  lemma {:induction false} WordsLayout(ws: seq<string>, gaps: seq<string>)
    requires |gaps| == |ws| + 1
    requires forall i :: 0 <= i < |ws| ==> 0 < |ws[i]| && NoSpace(ws[i])
    requires forall i :: 0 <= i < |gaps| ==> AllSpace(gaps[i])
    requires forall i :: 0 < i < |ws| ==> 0 < |gaps[i]|
    ensures Words(Layout(ws, gaps)) == ws
    decreases |ws|
  {
    if |ws| == 0 {
      WordsAfterSpace(gaps[0], "");
      assert gaps[0] + "" == gaps[0];
    } else {
      var w, rest := ws[0], Layout(ws[1..], gaps[1..]);
      WordsAfterSpace(gaps[0], w + rest);
      LayoutStart(ws[1..], gaps[1..]);
      RunLengthConcat(w, rest, IsWordChar);
      assert (w + rest)[0] == w[0];
      assert (w + rest)[..|w|] == w;
      assert (w + rest)[|w|..] == rest;
      WordsLayout(ws[1..], gaps[1..]);
      assert [w] + ws[1..] == ws;
    }
  }

  /** Splitting at a separator that `a` lacks peels `a` off as the first piece. */
  lemma {:induction false} SplitConcat(a: string, sep: char, b: string)
    requires sep !in a
    ensures Split(a + [sep] + b, sep) == [a] + Split(b, sep)
  {
    if |a| == 0 {
      assert a + [sep] + b == [sep] + b;
      assert ([sep] + b)[1..] == b;
    } else {
      assert (a + [sep] + b)[1..] == a[1..] + [sep] + b;
      SplitConcat(a[1..], sep, b);
      assert [a[0]] + a[1..] == a;
    }
  }

  /** A string without the separator splits into itself alone. */
  lemma SplitWithoutSeparator(s: string, sep: char)
    requires sep !in s
    ensures Split(s, sep) == [s]
  {
  }
}

=== FILE: results.dfy ===
/** Failure-compatible wrappers used by every parser of the model.
    `Option` stands for a Python function that may return `None`;
    `Result` stands for one that may raise, the error naming the exception. */
module Results {

  datatype Option<+T> = None | Some(value: T) {

    predicate IsFailure() {
      None?
    }

    function PropagateFailure<U>(): Option<U>
      requires None?
    {
      None
    }

    function Extract(): T
      requires Some?
    {
      value
    }

    function GetOr(default: T): T {
      if Some? then value else default
    }
  }

  datatype Result<+T, +E> = Ok(value: T) | Err(error: E) {

    predicate IsFailure() {
      Err?
    }

    function PropagateFailure<U>(): Result<U, E>
      requires Err?
    {
      Err(error)
    }

    function Extract(): T
      requires Ok?
    {
      value
    }
  }

  /** A loop that evaluates each step in order and raises the first
      exception: all the values when every step succeeds, otherwise the
      error of the first failing step. */
  function Collect<T, E>(rs: seq<Result<T, E>>): (r: Result<seq<T>, E>)
    ensures r.Ok? <==> forall i :: 0 <= i < |rs| ==> rs[i].Ok?
    ensures r.Ok? ==> |r.value| == |rs| && forall i :: 0 <= i < |rs| ==> rs[i] == Ok(r.value[i])
    ensures r.Err? ==> exists i :: 0 <= i < |rs| && rs[i] == Err(r.error) && forall j :: 0 <= j < i ==> rs[j].Ok?
  {
    if |rs| == 0 then Ok([])
    else if rs[0].Err? then Err(rs[0].error)
    else
      var rest := Collect(rs[1..]);
      assert forall i :: 1 <= i < |rs| ==> rs[1..][i - 1] == rs[i];
      if rest.Err? then
        assert exists i :: 0 <= i < |rs| && rs[i] == Err(rest.error) && forall j :: 0 <= j < i ==> rs[j].Ok? by {
          var k :| 0 <= k < |rs[1..]| && rs[1..][k] == Err(rest.error) && forall j :: 0 <= j < k ==> rs[1..][j].Ok?;
          assert rs[k + 1] == Err(rest.error);
          assert forall j :: 0 <= j < k + 1 ==> rs[j].Ok?;
        }
        Err(rest.error)
      else Ok([rs[0].value] + rest.value)
  }
}

=== FILE: sorting.dfy ===
/** The job table's sort controls (`SqueueViewer.sort`, `sort_reverse` and
    the three `action_sort_by_*` methods, src/slurmtop/_squeue_widget.py).
    A map remembers, per column, the direction of the last sort; every sort
    of a column flips it, so the first sort of a column is descending. The
    column's name picks the sort key: elapsed seconds, an integer, or the
    text itself. The table's own sort is Python's stable `sorted`. */
module Sorting {
  import opened Results
  import opened PyText
  import opened Duration

  // ===========================================================================
  // The toggle state
  // ===========================================================================

  /** `current_sorts`, `sorted_column` and `sorted_order` of the viewer. */
  datatype SortState = SortState(currentSorts: map<string, bool>, sortedColumn: Option<string>, sortedOrder: Option<bool>)

  /** The state of a freshly built viewer. */
  const Initial := SortState(map[], None, None)

  /** `current_sorts.get(column, False)`. */
  function Stored(st: SortState, column: string): bool {
    if column in st.currentSorts then st.currentSorts[column] else false
  }

  /** `sort_reverse(column)`: flips the column's stored flag and returns the
      new value, which is the `reverse` argument of the table's sort. */
  function SortReverse(st: SortState, column: string): (r: (SortState, bool))
    ensures r.1 == !Stored(st, column)
    ensures Stored(r.0, column) == r.1
    ensures forall c :: c != column ==> Stored(r.0, c) == Stored(st, c)
    ensures r.0.currentSorts.Keys == st.currentSorts.Keys + {column}
    ensures r.0.sortedColumn == st.sortedColumn && r.0.sortedOrder == st.sortedOrder
  {
    var flag := !Stored(st, column);
    (st.(currentSorts := st.currentSorts[column := flag]), flag)
  }

  // ===========================================================================
  // Sort keys
  // ===========================================================================

  /** A sort key: the integer of the time and number columns, or the text. */
  datatype SortKey = IntKey(n: int) | TextKey(s: string)

  /** The exceptions of the key functions: a missing cell (`KeyError`), and
      the `ValueError`s of `int` and of the duration reader. */
  datatype SortError = MissingCell(column: string) | BadNumber(text: string) | BadDuration(text: string)

  /** The key function chosen by the column's name. */
  function KeyFor(column: string, cell: string): (r: Result<SortKey, SortError>)
    ensures column == "time_elapse" ==> (r.Ok? <==> DatetimeToSeconds(cell).Ok?)
    ensures column == "time_elapse" && r.Ok? ==> r.value == IntKey(DatetimeToSeconds(cell).value)
    ensures column == "node_number" ==> (r.Ok? <==> ParseInt(cell).Some?)
    ensures column == "node_number" && r.Ok? ==> r.value == IntKey(ParseInt(cell).value)
    ensures column != "time_elapse" && column != "node_number" ==> r == Ok(TextKey(cell))
  {
    if column == "time_elapse" then
      match DatetimeToSeconds(cell)
      case Ok(t) => Ok(IntKey(t))
      case Err(_) => Err(BadDuration(cell))
    else if column == "node_number" then
      match ParseInt(cell)
      case Some(n) => Ok(IntKey(n))
      case None => Err(BadNumber(cell))
    else Ok(TextKey(cell))
  }

  /** The keys of every row, computed in row order before any comparison;
      the first failing row raises. An empty table computes none. */
  function RowKeys(rows: seq<map<string, string>>, column: string): (r: Result<seq<SortKey>, SortError>)
    ensures r.Err? <==> exists i :: 0 <= i < |rows| && (column !in rows[i] || KeyFor(column, rows[i][column]).Err?)
    ensures r.Ok? ==> |r.value| == |rows|
    ensures r.Ok? ==> forall i :: 0 <= i < |rows| ==> column in rows[i] && KeyFor(column, rows[i][column]) == Ok(r.value[i])
  {
    if |rows| == 0 then Ok([])
    else if column !in rows[0] then Err(MissingCell(column))
    else
      var first :- KeyFor(column, rows[0][column]);
      var rest := RowKeys(rows[1..], column);
      assert forall i :: 1 <= i < |rows| ==> rows[1..][i - 1] == rows[i];
      if rest.Err? then Err(rest.error) else Ok([first] + rest.value)
  }

  // ===========================================================================
  // The order
  // ===========================================================================

  /** Python's `<` on strings: code point by code point, a proper prefix first. */
  predicate TextLess(a: string, b: string) {
    if |a| == 0 then 0 < |b|
    else if |b| == 0 then false
    else if a[0] != b[0] then a[0] < b[0]
    else TextLess(a[1..], b[1..])
  }

  /** Python's `<` on the keys of one sort. One sort never mixes the two kinds;
      placing integers first only makes the order total. */
  predicate KeyLess(a: SortKey, b: SortKey) {
    match (a, b)
    case (IntKey(x), IntKey(y)) => x < y
    case (TextKey(x), TextKey(y)) => TextLess(x, y)
    case (IntKey(_), TextKey(_)) => true
    case (TextKey(_), IntKey(_)) => false
  }

  /** Whether `a` goes strictly before `b` in a sort with the given direction. */
  predicate Before(a: SortKey, b: SortKey, reverse: bool) {
    if reverse then KeyLess(b, a) else KeyLess(a, b)
  }

  lemma {:induction false} TextLessIrreflexive(a: string)
    ensures !TextLess(a, a)
  {
    if |a| > 0 {
      TextLessIrreflexive(a[1..]);
    }
  }

  lemma {:induction false} TextLessTransitive(a: string, b: string, c: string)
    requires TextLess(a, b) && TextLess(b, c)
    ensures TextLess(a, c)
  {
    if |a| > 0 && |b| > 0 && |c| > 0 && a[0] == b[0] && b[0] == c[0] {
      TextLessTransitive(a[1..], b[1..], c[1..]);
    }
  }

  lemma {:induction false} TextLessTotal(a: string, b: string)
    requires a != b
    ensures TextLess(a, b) || TextLess(b, a)
  {
    if |a| > 0 && |b| > 0 && a[0] == b[0] {
      assert a == [a[0]] + a[1..] && b == [b[0]] + b[1..];
      TextLessTotal(a[1..], b[1..]);
    }
  }

  /** `Before` is a strict total order for either direction. */
  lemma {:induction false} BeforeIrreflexive(a: SortKey, reverse: bool)
    ensures !Before(a, a, reverse)
  {
    if a.TextKey? {
      TextLessIrreflexive(a.s);
    }
  }

  lemma {:induction false} BeforeTransitive(a: SortKey, b: SortKey, c: SortKey, reverse: bool)
    requires Before(a, b, reverse) && Before(b, c, reverse)
    ensures Before(a, c, reverse)
  {
    if a.TextKey? && b.TextKey? && c.TextKey? {
      if reverse {
        TextLessTransitive(c.s, b.s, a.s);
      } else {
        TextLessTransitive(a.s, b.s, c.s);
      }
    }
  }

  lemma {:induction false} BeforeTotal(a: SortKey, b: SortKey, reverse: bool)
    requires a != b
    ensures Before(a, b, reverse) || Before(b, a, reverse)
  {
    if a.TextKey? && b.TextKey? {
      TextLessTotal(a.s, b.s);
    }
  }

  /** `x < y <= z` gives `x < z`, and then not `z < x`. */
  lemma {:induction false} BeforeThenNotAfter(x: SortKey, y: SortKey, z: SortKey, reverse: bool)
    requires Before(x, y, reverse) && !Before(z, y, reverse)
    ensures Before(x, z, reverse) && !Before(z, x, reverse) && x != z
  {
    if y != z {
      BeforeTotal(y, z, reverse);
      BeforeTransitive(x, y, z, reverse);
    }
    if Before(z, x, reverse) {
      BeforeTransitive(z, x, z, reverse);
      BeforeIrreflexive(z, reverse);
    }
    BeforeIrreflexive(x, reverse);
  }

  // ===========================================================================
  // The stable sort
  // ===========================================================================

  /** A row's position in the table paired with its key. */
  datatype Tagged = Tagged(pos: nat, key: SortKey)

  /** Every row's position and key, in row order. */
  function Tag(keys: seq<SortKey>): (t: seq<Tagged>)
    ensures |t| == |keys| && forall i :: 0 <= i < |keys| ==> t[i] == Tagged(i, keys[i])
  {
    seq(|keys|, i requires 0 <= i < |keys| => Tagged(i, keys[i]))
  }

  /** No element goes strictly before an earlier one. */
  predicate Sorted(reverse: bool, s: seq<Tagged>) {
    forall i, j :: 0 <= i < j < |s| ==> !Before(s[j].key, s[i].key, reverse)
  }

  /** Elements with equal keys are in the order of their positions. */
  predicate Stable(s: seq<Tagged>) {
    forall i, j :: 0 <= i < j < |s| && s[i].key == s[j].key ==> s[i].pos < s[j].pos
  }

  /** Positions strictly increase along the list. */
  predicate Increasing(s: seq<Tagged>) {
    forall i, j :: 0 <= i < j < |s| ==> s[i].pos < s[j].pos
  }

  /** Inserts `x` before the first element it goes strictly before. */
  function Insert(reverse: bool, s: seq<Tagged>, x: Tagged): (r: seq<Tagged>)
    ensures |r| == |s| + 1
    ensures forall i :: 0 <= i < |r| ==> r[i] == x || r[i] in s
  {
    if |s| == 0 then [x]
    else if Before(x.key, s[0].key, reverse) then [x] + s
    else [s[0]] + Insert(reverse, s[1..], x)
  }

  /** Each element in turn inserted into the sorted list of those before it. */
  function InsertionSort(reverse: bool, s: seq<Tagged>): (r: seq<Tagged>)
    ensures |r| == |s|
    ensures forall i :: 0 <= i < |r| ==> r[i] in s
  {
    if |s| == 0 then []
    else
      var prefix := s[..|s| - 1];
      assert forall e :: e in prefix ==> e in s;
      Insert(reverse, InsertionSort(reverse, prefix), s[|s| - 1])
  }

  /** A tag of the table names a row and carries that row's key. */
  lemma {:induction false} TagMember(keys: seq<SortKey>, e: Tagged)
    requires e in Tag(keys)
    ensures e.pos < |keys| && e.key == keys[e.pos]
  {
    var k :| 0 <= k < |Tag(keys)| && Tag(keys)[k] == e;
  }

  /** The row positions in sorted order. */
  function SortedPositions(keys: seq<SortKey>, reverse: bool): (r: seq<nat>)
    ensures |r| == |keys| && forall i :: 0 <= i < |r| ==> r[i] < |keys|
  {
    var t := InsertionSort(reverse, Tag(keys));
    assert forall i :: 0 <= i < |t| ==> t[i].pos < |keys| by {
      forall i | 0 <= i < |t| ensures t[i].pos < |keys| {
        TagMember(keys, t[i]);
      }
    }
    seq(|t|, i requires 0 <= i < |t| => t[i].pos)
  }

  /** The rows at the given positions. */
  function Pick<T>(rows: seq<T>, idx: seq<nat>): (r: seq<T>)
    requires forall i :: 0 <= i < |idx| ==> idx[i] < |rows|
    ensures |r| == |idx| && forall i :: 0 <= i < |idx| ==> r[i] == rows[idx[i]]
  {
    seq(|idx|, i requires 0 <= i < |idx| => rows[idx[i]])
  }

  /** `sorted(rows, key=..., reverse=...)`: the rows in the order the keys give. */
  function SortRows<T>(rows: seq<T>, keys: seq<SortKey>, reverse: bool): (r: seq<T>)
    requires |keys| == |rows|
    ensures |r| == |rows|
  {
    Pick(rows, SortedPositions(keys, reverse))
  }

  /** Every element a sorted list puts after its head is not before it. */
  lemma {:induction false} HeadFirst(reverse: bool, s: seq<Tagged>)
    requires Sorted(reverse, s) && |s| > 0
    ensures forall v :: v in s[1..] ==> !Before(v.key, s[0].key, reverse)
  {
    forall v | v in s[1..] ensures !Before(v.key, s[0].key, reverse) {
      var k :| 0 <= k < |s[1..]| && s[1..][k] == v;
      assert s[k + 1] == v;
    }
  }

  /** In a stable list, an element with the head's key has a larger position. */
  lemma {:induction false} HeadStable(s: seq<Tagged>)
    requires Stable(s) && |s| > 0
    ensures forall v :: v in s[1..] && v.key == s[0].key ==> s[0].pos < v.pos
  {
    forall v | v in s[1..] && v.key == s[0].key ensures s[0].pos < v.pos {
      var k :| 0 <= k < |s[1..]| && s[1..][k] == v;
      assert s[k + 1] == v;
    }
  }

  /** Inserting keeps the list sorted. */
  lemma {:induction false} InsertSorted(reverse: bool, s: seq<Tagged>, x: Tagged)
    requires Sorted(reverse, s)
    ensures Sorted(reverse, Insert(reverse, s, x))
  {
    var r := Insert(reverse, s, x);
    if |s| == 0 {
    } else if Before(x.key, s[0].key, reverse) {
      HeadFirst(reverse, s);
      BeforeIrreflexive(s[0].key, reverse);
      forall j | 0 < j < |r| ensures !Before(r[j].key, r[0].key, reverse) {
        assert r[j] == s[j - 1];
        assert j > 1 ==> s[j - 1] in s[1..];
        BeforeThenNotAfter(x.key, s[0].key, s[j - 1].key, reverse);
      }
    } else {
      var t := Insert(reverse, s[1..], x);
      assert Sorted(reverse, t) by {
        InsertSorted(reverse, s[1..], x);
      }
      HeadFirst(reverse, s);
      assert r == [s[0]] + t;
      forall j | 0 < j < |r| ensures !Before(r[j].key, r[0].key, reverse) {
        assert r[j] == t[j - 1];
      }
    }
  }

  /** An element placed at the front differs in key from everything after it. */
  lemma {:induction false} FrontKeyDiffers(reverse: bool, s: seq<Tagged>, x: Tagged)
    requires Sorted(reverse, s) && |s| > 0 && Before(x.key, s[0].key, reverse)
    ensures forall v :: v in s ==> v.key != x.key
  {
    HeadFirst(reverse, s);
    BeforeIrreflexive(s[0].key, reverse);
    forall v | v in s ensures v.key != x.key {
      BeforeThenNotAfter(x.key, s[0].key, v.key, reverse);
    }
  }

  /** A stable list stays stable under a new head whose equal-keyed
      followers all come after it. */
  lemma {:induction false} ConsStable(y: Tagged, t: seq<Tagged>)
    requires Stable(t)
    requires forall v :: v in t && v.key == y.key ==> y.pos < v.pos
    ensures Stable([y] + t)
  {
    var r := [y] + t;
    forall i, j | 0 <= i < j < |r| && r[i].key == r[j].key ensures r[i].pos < r[j].pos {
      assert r[j] == t[j - 1];
      if i > 0 {
        assert r[i] == t[i - 1];
      }
    }
  }

  /** Inserting an element whose position is past every listed one keeps
      equal keys in position order. */
  lemma {:induction false} InsertStable(reverse: bool, s: seq<Tagged>, x: Tagged)
    requires Sorted(reverse, s) && Stable(s)
    requires forall v :: v in s ==> v.pos < x.pos
    ensures Stable(Insert(reverse, s, x))
  {
    if |s| == 0 {
    } else if Before(x.key, s[0].key, reverse) {
      FrontKeyDiffers(reverse, s, x);
      ConsStable(x, s);
    } else {
      var t := Insert(reverse, s[1..], x);
      assert Sorted(reverse, s[1..]) && Stable(s[1..]) by {
        forall i, j | 0 <= i < j < |s[1..]| ensures s[1..][i] == s[i + 1] && s[1..][j] == s[j + 1] { }
      }
      assert Stable(t) by {
        assert forall v :: v in s[1..] ==> v in s;
        InsertStable(reverse, s[1..], x);
      }
      HeadStable(s);
      assert forall v :: v in t ==> v == x || v in s[1..];
      ConsStable(s[0], t);
    }
  }

  /** Inserting adds exactly the one element. */
  lemma {:induction false} InsertPermutes(reverse: bool, s: seq<Tagged>, x: Tagged)
    ensures multiset(Insert(reverse, s, x)) == multiset(s) + multiset{x}
  {
    if |s| > 0 && !Before(x.key, s[0].key, reverse) {
      InsertPermutes(reverse, s[1..], x);
      assert s == [s[0]] + s[1..];
    }
  }

  /** The sorted list holds exactly the elements of the input. */
  lemma {:induction false} InsertionSortPermutes(reverse: bool, s: seq<Tagged>)
    ensures multiset(InsertionSort(reverse, s)) == multiset(s)
  {
    if |s| > 0 {
      var prefix := s[..|s| - 1];
      InsertionSortPermutes(reverse, prefix);
      InsertPermutes(reverse, InsertionSort(reverse, prefix), s[|s| - 1]);
      assert s == prefix + [s[|s| - 1]];
    }
  }

  /** The sorted list is in key order. */
  lemma {:induction false} InsertionSortSorted(reverse: bool, s: seq<Tagged>)
    ensures Sorted(reverse, InsertionSort(reverse, s))
  {
    if |s| > 0 {
      InsertionSortSorted(reverse, s[..|s| - 1]);
      InsertSorted(reverse, InsertionSort(reverse, s[..|s| - 1]), s[|s| - 1]);
    }
  }

  /** Sorting a list in position order keeps equal keys in position order. */
  lemma {:induction false} InsertionSortStable(reverse: bool, s: seq<Tagged>)
    requires Increasing(s)
    ensures Stable(InsertionSort(reverse, s))
  {
    if |s| > 0 {
      var prefix := s[..|s| - 1];
      var sorted := InsertionSort(reverse, prefix);
      InsertionSortStable(reverse, prefix);
      InsertionSortSorted(reverse, prefix);
      forall v | v in sorted ensures v.pos < s[|s| - 1].pos {
        var k :| 0 <= k < |prefix| && prefix[k] == v;
      }
      InsertStable(reverse, sorted, s[|s| - 1]);
    }
  }

  // ===========================================================================
  // The sort
  // ===========================================================================

  /** `sort(column)` on a table whose rows map column names to cells: the
      column and the order are recorded first, then the key function is
      chosen, then `sort_reverse` is evaluated as an argument of the table's
      sort, so the flag flips even when a key raises. `rows` are the table's
      rows in insertion order: each sort starts from them, not from the order
      an earlier sort displayed. */
  function Sort(st: SortState, column: string, rows: seq<map<string, string>>)
    : (r: (SortState, Result<seq<map<string, string>>, SortError>))
    ensures r.0.sortedColumn == Some(column)
    ensures r.0.sortedOrder == Some(!Stored(st, column))
    ensures Stored(r.0, column) == !Stored(st, column)
    ensures forall c :: c != column ==> Stored(r.0, c) == Stored(st, c)
    ensures r.1.Err? <==> RowKeys(rows, column).Err?
    ensures r.1.Ok? ==> |r.1.value| == |rows|
  {
    var recorded := st.(sortedColumn := Some(column), sortedOrder := Some(!Stored(st, column)));
    var (st', reverse) := SortReverse(recorded, column);
    match RowKeys(rows, column)
    case Err(e) => (st', Err(e))
    case Ok(keys) => (st', Ok(SortRows(rows, keys, reverse)))
  }

  // ===========================================================================
  // Properties
  // ===========================================================================

  /** The flag returned by `sort_reverse` alternates. */
  lemma {:induction false} SortReverseAlternates(st: SortState, column: string)
    ensures SortReverse(SortReverse(st, column).0, column).1 == !SortReverse(st, column).1
  {
  }

  /** `k` successive `sort_reverse(column)` calls. */
  function Toggles(st: SortState, column: string, k: nat): SortState {
    if k == 0 then st else SortReverse(Toggles(st, column, k - 1), column).0
  }

  /** From a fresh viewer the `k`-th call returns `True` for odd `k`: True, False, True, ... */
  lemma {:induction false} SortReverseSequence(column: string, k: nat)
    requires k > 0
    ensures SortReverse(Toggles(Initial, column, k - 1), column).1 == (k % 2 == 1)
  {
    if k > 1 {
      SortReverseSequence(column, k - 1);
    }
  }

  /** The recorded order is the direction the table was sorted in. */
  lemma {:induction false} SortRecordsDirection(st: SortState, column: string, rows: seq<map<string, string>>)
    ensures Sort(st, column, rows).0.sortedOrder == Some(SortReverse(st, column).1)
  {
  }

  /** A successful sort lists every row once, in key order, with rows of
      equal keys in their original order: the result is the rows at the
      positions of a sorted, stable permutation of the tagged keys. */
  lemma {:induction false} SortIsStableSort(st: SortState, column: string, rows: seq<map<string, string>>)
    requires RowKeys(rows, column).Ok?
    ensures var keys := RowKeys(rows, column).value;
            var reverse := !Stored(st, column);
            var t := InsertionSort(reverse, Tag(keys));
            && multiset(t) == multiset(Tag(keys))
            && Sorted(reverse, t) && Stable(t)
            && Sort(st, column, rows).1.Ok?
            && |Sort(st, column, rows).1.value| == |t|
            && forall i :: 0 <= i < |t| ==> t[i].pos < |rows| && Sort(st, column, rows).1.value[i] == rows[t[i].pos]
  {
    var keys := RowKeys(rows, column).value;
    SortWithKeys(st, column, rows, keys);
    SortRowsStable(rows, keys, !Stored(st, column));
  }

  /** The rows in key order are the rows at the positions of a sorted,
      stable permutation of the tagged keys. */
  lemma {:induction false} SortRowsStable<T>(rows: seq<T>, keys: seq<SortKey>, reverse: bool)
    requires |keys| == |rows|
    ensures var t := InsertionSort(reverse, Tag(keys));
            && multiset(t) == multiset(Tag(keys))
            && Sorted(reverse, t) && Stable(t)
            && |SortRows(rows, keys, reverse)| == |t|
            && forall i :: 0 <= i < |t| ==> t[i].pos < |rows| && SortRows(rows, keys, reverse)[i] == rows[t[i].pos]
  {
    var t := InsertionSort(reverse, Tag(keys));
    InsertionSortPermutes(reverse, Tag(keys));
    InsertionSortSorted(reverse, Tag(keys));
    InsertionSortStable(reverse, Tag(keys));
    forall i | 0 <= i < |t| ensures t[i].pos < |rows| {
      TagMember(keys, t[i]);
    }
  }

  /** The first sort of a column is descending; sorting it again is ascending. */
  lemma {:induction false} FirstSortDescending(column: string, rows: seq<map<string, string>>)
    ensures Sort(Initial, column, rows).0.sortedOrder == Some(true)
    ensures Sort(Sort(Initial, column, rows).0, column, rows).0.sortedOrder == Some(false)
  {
  }

  /** Every elapsed-time cell the job list produces sorts by its whole
      seconds, a job not yet started (or without a start time) as zero. */
  lemma {:induction false} ElapsedKey(startTime: int, nowMicros: int)
    ensures KeyFor("time_elapse", TimeElapse(startTime, nowMicros))
         == Ok(IntKey(if startTime <= 0 || nowMicros < startTime * 1000000 then 0
                      else (nowMicros - startTime * 1000000) / 1000000))
  {
    TimeElapseRoundTrip(startTime, nowMicros);
  }

  /** The outcome of a sort whose keys are all computed. */
  lemma {:induction false} SortWithKeys(st: SortState, column: string, rows: seq<map<string, string>>, keys: seq<SortKey>)
    requires RowKeys(rows, column) == Ok(keys)
    ensures Sort(st, column, rows).1 == Ok(SortRows(rows, keys, !Stored(st, column)))
  {
  }

  /** A one-digit cell of the node column reads as its digit. */
  lemma {:induction false} DigitNodeKey(column: string, cell: string)
    requires column == "node_number"
    requires |cell| == 1 && IsDigit(cell[0])
    ensures KeyFor(column, cell) == Ok(IntKey(DigitValue(cell[0])))
  {
    ParseIntDigits(cell);
    assert cell[..0] == [];
    assert DecimalValue(cell) == DigitValue(cell[0]);
  }

  /** The node column keys `str(n)` as the integer `n`, negative or not. */
  lemma {:induction false} NodeKeyRoundTrip(n: int)
    ensures KeyFor("node_number", IntToDecimal(n)) == Ok(IntKey(n))
  {
    IntToDecimalRoundTrip(n);
  }

  /** A node cell holding a character `int` never admits fails to key, and the
      sort raises on it. */
  lemma {:induction false} NodeKeyRejects(cell: string, k: nat)
    requires k < |cell| && !IsIntChar(cell[k])
    ensures KeyFor("node_number", cell) == Err(BadNumber(cell))
  {
  }

  /** Keys computed row by row are the keys of the table. */
  lemma {:induction false} KeysOfCells(rows: seq<map<string, string>>, column: string, keys: seq<SortKey>)
    requires |rows| == |keys|
    requires forall i :: 0 <= i < |rows| ==> column in rows[i] && KeyFor(column, rows[i][column]) == Ok(keys[i])
    ensures RowKeys(rows, column) == Ok(keys)
  {
    var r := RowKeys(rows, column);
    assert r.Ok?;
    assert r.value == keys;
  }

  /** The node counts `3, 1, 2` read as integer keys. */
  lemma {:induction false} ThreeNodeKeys(rows: seq<map<string, string>>, column: string)
    requires column == "node_number"
    requires rows == [map[column := "3"], map[column := "1"], map[column := "2"]]
    ensures RowKeys(rows, column) == Ok([IntKey(3), IntKey(1), IntKey(2)])
  {
    var keys := [IntKey(3), IntKey(1), IntKey(2)];
    forall i | 0 <= i < |rows|
      ensures column in rows[i] && KeyFor(column, rows[i][column]) == Ok(keys[i])
    {
      var cell := rows[i][column];
      assert cell == ["3", "1", "2"][i];
      DigitNodeKey(column, cell);
      assert DigitValue(cell[0]) == [3, 1, 2][i];
    }
    KeysOfCells(rows, column, keys);
  }

  /** Positions of the keys `3, 1, 2`, descending. */
  lemma {:induction false} ThreeKeysDescending(keys: seq<SortKey>)
    requires keys == [IntKey(3), IntKey(1), IntKey(2)]
    ensures SortedPositions(keys, true) == [0, 2, 1]
  {
    var t := Tag(keys);
    assert t == [Tagged(0, IntKey(3)), Tagged(1, IntKey(1)), Tagged(2, IntKey(2))];
    assert t[..1][..0] == [];
    assert InsertionSort(true, t[..1]) == [t[0]];
    assert t[..2][..1] == t[..1];
    assert InsertionSort(true, t[..2]) == [t[0], t[1]];
    assert t[..2] == t[..|t| - 1];
    assert Insert(true, [t[1]], t[2]) == [t[2], t[1]];
    assert Insert(true, [t[0], t[1]], t[2]) == [t[0]] + Insert(true, [t[1]], t[2]);
    assert InsertionSort(true, t) == [t[0], t[2], t[1]];
  }

  /** Positions of the keys `3, 1, 2`, ascending. */
  lemma {:induction false} ThreeKeysAscending(keys: seq<SortKey>)
    requires keys == [IntKey(3), IntKey(1), IntKey(2)]
    ensures SortedPositions(keys, false) == [1, 2, 0]
  {
    var t := Tag(keys);
    assert t == [Tagged(0, IntKey(3)), Tagged(1, IntKey(1)), Tagged(2, IntKey(2))];
    assert t[..1][..0] == [];
    assert InsertionSort(false, t[..1]) == [t[0]];
    assert t[..2][..1] == t[..1];
    assert InsertionSort(false, t[..2]) == [t[1], t[0]];
    assert t[..2] == t[..|t| - 1];
    assert Insert(false, [t[0]], t[2]) == [t[2], t[0]];
    assert Insert(false, [t[1], t[0]], t[2]) == [t[1]] + Insert(false, [t[0]], t[2]);
    assert InsertionSort(false, t) == [t[1], t[2], t[0]];
  }

  /** The keys `3, 1, 2` in both directions. */
  lemma {:induction false} ThreeKeysOrder<T>(rows: seq<T>, keys: seq<SortKey>)
    requires |rows| == 3 && keys == [IntKey(3), IntKey(1), IntKey(2)]
    ensures SortRows(rows, keys, true) == [rows[0], rows[2], rows[1]]
    ensures SortRows(rows, keys, false) == [rows[1], rows[2], rows[0]]
  {
    ThreeKeysDescending(keys);
    ThreeKeysAscending(keys);
    PickThree(rows, [0, 2, 1]);
    PickThree(rows, [1, 2, 0]);
  }

  lemma {:induction false} PickThree<T>(rows: seq<T>, idx: seq<nat>)
    requires |idx| == 3 && forall i :: 0 <= i < 3 ==> idx[i] < |rows|
    ensures Pick(rows, idx) == [rows[idx[0]], rows[idx[1]], rows[idx[2]]]
  {
  }

  /** Sorting three rows by node count: `3, 1, 2` become `3, 2, 1`, then `1, 2, 3`. */
  lemma {:induction false} NodeNumberScenario(rows: seq<map<string, string>>, column: string)
    requires column == "node_number"
    requires rows == [map[column := "3"], map[column := "1"], map[column := "2"]]
    ensures var first := Sort(Initial, column, rows);
            var second := Sort(first.0, column, rows);
            && first.1 == Ok([rows[0], rows[2], rows[1]])
            && second.1 == Ok([rows[1], rows[2], rows[0]])
  {
    var keys := [IntKey(3), IntKey(1), IntKey(2)];
    ThreeNodeKeys(rows, column);
    ThreeKeysOrder(rows, keys);
    var first := Sort(Initial, column, rows);
    assert Stored(first.0, column);
    SortWithKeys(Initial, column, rows, keys);
    SortWithKeys(first.0, column, rows, keys);
  }
}

=== FILE: squeue.dfy ===
/** The two text helpers of src/slurmtop/_squeue.py: cutting a string into
    fixed-width lines (`split_string_into_lines`) and turning the plain-text
    output of `squeue` into one map per job (the parsing half of
    `get_jobs_list`). The command's output arrives as its list of lines. */
module Squeue {
  import opened Results
  import opened PyText

  // ===========================================================================
  // split_string_into_lines
  // ===========================================================================

  /** The concatenation of all pieces. */
  function Concat(cs: seq<string>): string {
    if |cs| == 0 then "" else cs[0] + Concat(cs[1..])
  }

  /** `[s[i:i+n] for i in range(0, len(s), n)]`: full pieces of `n`
      characters and a shorter, non-empty last one. Their number is the
      ceiling of `|s| / n`, stated without division. */
  function Chunks(s: string, n: nat): (cs: seq<string>)
    requires 0 < n
    ensures |cs| == 0 <==> |s| == 0
    ensures (|cs| - 1) * n < |s| <= |cs| * n
    ensures forall i :: 0 <= i < |cs| ==> 0 < |cs[i]| <= n
    ensures forall i :: 0 <= i < |cs| - 1 ==> |cs[i]| == n
    decreases |s|
  {
    if |s| == 0 then []
    else if |s| <= n then [s]
    else
      var rest := Chunks(s[n..], n);
      assert (|rest| - 1) * n < |s| - n <= |rest| * n;
      assert (|rest| + 1 - 1) * n == |rest| * n && (|rest| + 1) * n == |rest| * n + n;
      [s[..n]] + rest
  }

  /** Why `split_string_into_lines` fails: `range` refuses a step of zero. */
  datatype ChunkError = ZeroStep

  /** `split_string_into_lines(string, max_length)`: the pieces joined with
      newlines. A negative width gives an empty range, hence `""`. For a
      positive width and a non-empty, newline-free input, splitting the result
      on newlines gives the pieces back, and they concatenate to the input. */
  function SplitStringIntoLines(s: string, maxLength: int): (r: Result<string, ChunkError>)
    ensures r.Err? <==> maxLength == 0
    ensures maxLength < 0 ==> r == Ok("")
    ensures 0 < maxLength ==> r == Ok(JoinWith(Chunks(s, maxLength), "\n"))
    ensures r.Ok? && 0 < maxLength && 0 < |s| && '\n' !in s
            ==> Split(r.value, '\n') == Chunks(s, maxLength) && Concat(Split(r.value, '\n')) == s
  {
    if maxLength == 0 then Err(ZeroStep)
    else if maxLength < 0 then Ok("")
    else if 0 < |s| && '\n' !in s then
      ChunkLinesRoundTrip(s, maxLength);
      Ok(JoinWith(Chunks(s, maxLength), "\n"))
    else Ok(JoinWith(Chunks(s, maxLength), "\n"))
  }

  /** The pieces put back together give the input. */
  lemma {:induction false} ChunksConcat(s: string, n: nat)
    requires 0 < n
    ensures Concat(Chunks(s, n)) == s
    decreases |s|
  {
    if |s| > n {
      ChunksConcat(s[n..], n);
      assert s == s[..n] + s[n..];
    } else if |s| > 0 {
      assert Chunks(s, n) == [s];
      assert s + "" == s;
    }
  }

  /** The number of pieces is `ceil(|s| / n)`. */
  lemma {:induction false} ChunksCount(s: string, n: nat)
    requires 0 < n
    ensures |Chunks(s, n)| == (|s| + n - 1) / n
  {
    var k := |Chunks(s, n)|;
    if k > 0 {
      var r := |s| + n - 1 - k * n;
      assert 0 <= r < n;
      assert |s| + n - 1 == k * n + r;
      DivUnique(|s| + n - 1, n, k, r);
    }
  }

  lemma {:induction false} DivUnique(x: int, n: int, q: int, r: int)
    requires 0 < n && 0 <= r < n && x == q * n + r
    ensures x / n == q
  {
    var q' := x / n;
    assert x == q' * n + x % n;
    assert (q - q') * n == x % n - r;
    if q' < q {
      MulAtLeast(q - q', n);
    } else if q' > q {
      MulAtLeast(q' - q, n);
    }
  }

  lemma {:induction false} MulAtLeast(d: int, n: int)
    requires 1 <= d && 0 < n
    ensures n <= d * n
    decreases d
  {
    if d > 1 {
      MulAtLeast(d - 1, n);
      assert d * n == (d - 1) * n + n;
    }
  }

  /** Splitting newline-joined, newline-free parts on newlines gives the parts. */
  lemma {:induction false} SplitJoined(cs: seq<string>)
    requires 0 < |cs| && forall i :: 0 <= i < |cs| ==> '\n' !in cs[i]
    ensures Split(JoinWith(cs, "\n"), '\n') == cs
  {
    if |cs| == 1 {
      SplitWithoutSeparator(cs[0], '\n');
    } else {
      SplitJoined(cs[1..]);
      SplitConcat(cs[0], '\n', JoinWith(cs[1..], "\n"));
      assert cs[0] + "\n" + JoinWith(cs[1..], "\n") == cs[0] + ['\n'] + JoinWith(cs[1..], "\n");
      assert cs == [cs[0]] + cs[1..];
    }
  }

  /** A newline-free string cut into newline-joined pieces is recovered by
      splitting on newlines and concatenating the lines. */
  lemma {:induction false} ChunkLinesRoundTrip(s: string, n: nat)
    requires 0 < n && 0 < |s| && '\n' !in s
    ensures Split(JoinWith(Chunks(s, n), "\n"), '\n') == Chunks(s, n)
    ensures Concat(Chunks(s, n)) == s
  {
    var cs := Chunks(s, n);
    ChunksConcat(s, n);
    forall i | 0 <= i < |cs| ensures '\n' !in cs[i] {
      ConcatPart(cs, i);
    }
    SplitJoined(cs);
  }

  /** Every character of a part is a character of the concatenation. */
  lemma {:induction false} ConcatPart(cs: seq<string>, i: nat)
    requires i < |cs|
    ensures forall c :: c in cs[i] ==> c in Concat(cs)
  {
    if i > 0 {
      ConcatPart(cs[1..], i - 1);
    }
  }

  /** Cutting the empty string gives the empty string for every usable width. */
  lemma {:induction false} SplitEmpty(maxLength: int)
    requires maxLength != 0
    ensures SplitStringIntoLines("", maxLength) == Ok("")
  {
  }

  // ===========================================================================
  // get_jobs_list
  // ===========================================================================

  function Min(a: int, b: int): int {
    if a < b then a else b
  }

  /** The loop `for header, value in pairs: d[header] = value` started on
      the map `m`, over two lists of equal length. */
  function ZipInto(m: map<string, string>, headers: seq<string>, values: seq<string>): (r: map<string, string>)
    requires |headers| == |values|
    ensures r.Keys == m.Keys + set i | 0 <= i < |headers| :: headers[i]
    decreases |headers|
  {
    if |headers| == 0 then m
    else
      var r := ZipInto(m[headers[0] := values[0]], headers[1..], values[1..]);
      assert forall i :: 1 <= i < |headers| ==> headers[1..][i - 1] == headers[i];
      r
  }

  /** Keys the loop never meets keep their value. */
  lemma {:induction false} ZipIntoUntouched(m: map<string, string>, headers: seq<string>, values: seq<string>, key: string)
    requires |headers| == |values| && key in m && key !in headers
    ensures ZipInto(m, headers, values)[key] == m[key]
    decreases |headers|
  {
    if |headers| > 0 {
      assert key != headers[0] && key !in headers[1..];
      ZipIntoUntouched(m[headers[0] := values[0]], headers[1..], values[1..], key);
    }
  }

  /** A header's value is the one paired with its last occurrence. */
  lemma {:induction false} ZipIntoLast(m: map<string, string>, headers: seq<string>, values: seq<string>, i: nat)
    requires |headers| == |values| && i < |headers| && headers[i] !in headers[i + 1..]
    ensures ZipInto(m, headers, values)[headers[i]] == values[i]
    decreases |headers|
  {
    if i == 0 {
      ZipIntoUntouched(m[headers[0] := values[0]], headers[1..], values[1..], headers[0]);
    } else {
      assert headers[1..][i - 1] == headers[i] && values[1..][i - 1] == values[i];
      assert headers[1..][i..] == headers[i + 1..];
      ZipIntoLast(m[headers[0] := values[0]], headers[1..], values[1..], i - 1);
    }
  }

  /** `for header, value in zip(headers, values): d[header] = value` from an
      empty `d`: the pairs up to the shorter list, a later repeated header
      overwriting an earlier one. */
  function ZipMap(headers: seq<string>, values: seq<string>): (m: map<string, string>)
    ensures m.Keys == set i | 0 <= i < Min(|headers|, |values|) :: headers[i]
  {
    var n := Min(|headers|, |values|);
    var m := ZipInto(map[], headers[..n], values[..n]);
    assert forall i :: 0 <= i < n ==> headers[..n][i] == headers[i];
    m
  }

  /** Every header paired with a value maps to the value of its last occurrence. */
  lemma {:induction false} ZipMapLast(headers: seq<string>, values: seq<string>, i: nat)
    requires i < Min(|headers|, |values|) && headers[i] !in headers[i + 1..Min(|headers|, |values|)]
    ensures ZipMap(headers, values)[headers[i]] == values[i]
  {
    var n := Min(|headers|, |values|);
    assert headers[..n][i + 1..] == headers[i + 1..n];
    ZipIntoLast(map[], headers[..n], values[..n], i);
  }

  /** Why `get_jobs_list` fails: the output has no header line (`data[0]`). */
  datatype JobsListError = NoHeader

  /** The parsing half of `get_jobs_list(num_jobs)`: the first line's words
      are the headers; every later line becomes one map; `num_jobs` of
      `None` keeps them all, otherwise the slice `[:num_jobs]` is taken. */
  function GetJobsList(lines: seq<string>, numJobs: Option<int>): (r: Result<seq<map<string, string>>, JobsListError>)
    ensures r.Err? <==> |lines| == 0
    ensures r.Ok? && numJobs.None? ==> |r.value| == |lines| - 1
    ensures r.Ok? && numJobs.Some? ==> |r.value| == |SlicePrefix(lines[1..], numJobs.value)|
    ensures r.Ok? ==> forall i :: 0 <= i < |r.value| ==> 1 + i < |lines| && r.value[i] == ZipMap(Words(lines[0]), Words(lines[1 + i]))
  {
    if |lines| == 0 then Err(NoHeader)
    else
      var headers := Words(lines[0]);
      var jobs := seq(|lines| - 1, i requires 0 <= i < |lines| - 1 => ZipMap(headers, Words(lines[1 + i])));
      match numJobs
      case None => Ok(jobs)
      case Some(n) =>
        var kept := SlicePrefix(jobs, n);
        assert kept == jobs[..|kept|];
        Ok(kept)
  }

  /** A row with a value under every header and no repeated header gives
      back its values in header order. */
  lemma {:induction false} ZipMapRoundTrip(headers: seq<string>, values: seq<string>)
    requires |headers| == |values|
    requires forall i, j :: 0 <= i < j < |headers| ==> headers[i] != headers[j]
    ensures forall i :: 0 <= i < |headers| ==> headers[i] in ZipMap(headers, values)
    ensures seq(|headers|, i requires 0 <= i < |headers| => ZipMap(headers, values)[headers[i]]) == values
  {
    var m := ZipMap(headers, values);
    forall i | 0 <= i < |headers| ensures headers[i] in m && m[headers[i]] == values[i] {
      assert forall j :: i + 1 <= j < |headers| ==> headers[j] != headers[i];
      assert headers[i] !in headers[i + 1..];
      assert headers[i + 1..Min(|headers|, |values|)] == headers[i + 1..];
      ZipMapLast(headers, values, i);
    }
  }

  /** `num_jobs` keeps a prefix of the full list: its first `num_jobs` maps. */
  lemma {:induction false} GetJobsListPrefix(lines: seq<string>, n: int)
    requires 0 < |lines| && 0 <= n
    ensures var all := GetJobsList(lines, None).value;
            GetJobsList(lines, Some(n)).value == all[..Min(n, |all|)]
  {
  }

  /** A short row keeps only the headers it has values for. */
  lemma {:induction false} ShortRowExample()
    ensures ZipMap(["JOBID", "USER", "ST"], ["43", "bob"]) == map["JOBID" := "43", "USER" := "bob"]
  {
    var h := ["JOBID", "USER", "ST"];
    var v := ["43", "bob"];
    var m := ZipMap(h, v);
    assert m.Keys == {"JOBID", "USER"} by {
      assert Min(|h|, |v|) == 2;
      assert (set i | 0 <= i < 2 :: h[i]) == {h[0], h[1]};
    }
    assert h[0] !in h[1..2] && h[1] !in h[2..2];
    ZipMapLast(h, v, 0);
    ZipMapLast(h, v, 1);
  }

  /** A full row maps every header to its value. */
  lemma {:induction false} FullRowExample()
    ensures ZipMap(["JOBID", "USER", "ST"], ["42", "ann", "R"]) == map["JOBID" := "42", "USER" := "ann", "ST" := "R"]
  {
    var h := ["JOBID", "USER", "ST"];
    var v := ["42", "ann", "R"];
    var m := ZipMap(h, v);
    assert m.Keys == {"JOBID", "USER", "ST"} by {
      assert Min(|h|, |v|) == 3;
      assert (set i | 0 <= i < 3 :: h[i]) == {h[0], h[1], h[2]};
    }
    assert h[0] !in h[1..3] && h[1] !in h[2..3] && h[2] !in h[3..3];
    ZipMapLast(h, v, 0);
    ZipMapLast(h, v, 1);
    ZipMapLast(h, v, 2);
  }
}
